=== FILE: README.md ===
# AIE7 agent and RAG helpers in Dafny

This project models the pure logic in the course repository's RAG and agent code:

- **Text chunking and stopword removal** from the `aimakerspace` package:
  - `CharacterTextSplitter`, a fixed-stride window over the characters;
  - `ParagraphTextSplitter`, which greedily packs stripped non-blank lines into chunks;
  - `TextPreprocessor.remove_stopwords`.
- **The ManualAIze graph** of the assignment backend:
  - the `AgentState` merge rule;
  - the node bodies `retrieve_node`, `search_agent_node`, `writer_node` and `router_node`, plus the router's option list;
  - the `search_internet` result formatting;
  - the edge table of `create_graph`, run as a transition system over `Retrieve`, `Router`, `Search`, `Writer` and `End`.
- **The two LangGraph agents** of `langgraph_agent_lib`:
  - the RAG tool and the default tool list;
  - both `should_continue` functions, `check_helpfulness` and `should_refine`;
  - both edge tables.
- **Three production helpers** from the architecture analysis: `simple_cache`, `RateLimiter` and `CircuitBreaker`.
- **The MCP server's `generate_password`.**

Everything outside this logic becomes an input, never a call. That covers:
- model, retriever, search-engine and agent-executor answers, given as functions from the request to a `Result`;
- the clock, given as explicit time values;
- randomness, given as a sequence of indices;
- the stopword list, given as a set.

An exception is modelled as the `Err` case of `Result`.

Python string behaviour is written out:
- `str.split()` and `str.strip()` use Python's full `isspace` set;
- `str.split('\n')` keeps its empty pieces;
- a slice with an out-of-range stop is clamped.

The `"\\n"` in the graph's rendered texts is modelled as the two characters backslash and `n`, which is how the source writes it.

The code has none of the following, so the model has none:
- a round counter on the helpfulness loop;
- pruning of the search context;
- containment of search-agent failures;
- a "default to Search" rule. An empty router decision gives `FINISH`.

`router_node` returns the whole state plus `next`. Under the list-concatenating reducer this appends the history to itself, and the model keeps that doubling (`GraphNodes.RouterDoublesHistory`).

Files, one module each:
- `base.dfy`: `Option`, `Result`, the `"\\n"` separator, ASCII digits and decimal rendering, substring search, flattening;
- `text_utils.dfy`;
- `graph_state.dfy`, `graph_nodes.dfy`, `graph_tools.dfy`, `graph_builder.dfy`;
- `agents.dfy`;
- `resilience.dfy`;
- `password.dfy`.

## Model

| member | source | states |
|---|---|---|
| Base.NatToStringRoundTrip | 16_Production_RAG_and_Guardrails/langgraph_agent_lib/agents.py:209 | reading back the decimal rendering of a number with `int` gives the number |
| TextUtils.Strip | 02_Embeddings_and_RAG/aimakerspace/text_utils.py:98 | `strip` returns the slice of its input between the leading and the trailing whitespace: everything cut from either end is whitespace, the result has no whitespace at either end, and it is empty exactly when the input is all whitespace |
| TextUtils.StripTidy | 02_Embeddings_and_RAG/aimakerspace/text_utils.py:105-115 | stripping a chunk that already has no outer whitespace leaves it unchanged |
| TextUtils.SplitOnNoSep | 02_Embeddings_and_RAG/aimakerspace/text_utils.py:98 | a text without `'\n'` splits into itself alone |
| TextUtils.SplitOnJoin | 02_Embeddings_and_RAG/aimakerspace/text_utils.py:98-109 | splitting `a + '\n' + b` gives the pieces of `a` followed by the pieces of `b` |
| TextUtils.SplitOnPieces | 02_Embeddings_and_RAG/aimakerspace/text_utils.py:98 | no piece of `split('\n')` contains a newline or is longer than the text |
| TextUtils.NewCharSplitter | 02_Embeddings_and_RAG/aimakerspace/text_utils.py:68-78 | construction (by default with size 1000 and overlap 200) succeeds exactly when `chunk_size > chunk_overlap`, keeps both values and yields a positive stride; otherwise it fails with the assertion's message |
| TextUtils.WindowsCount | 02_Embeddings_and_RAG/aimakerspace/text_utils.py:82 | the `range` loop makes the least number of steps whose strides cover the rest of the text |
| TextUtils.WindowsShape | 02_Embeddings_and_RAG/aimakerspace/text_utils.py:82-83 | window k is the slice starting k strides in, cut at `chunk_size` or at the end of the text |
| TextUtils.CharSplitCount | 02_Embeddings_and_RAG/aimakerspace/text_utils.py:80-84 | there are ceil(\|text\| / step) chunks, and none for the empty text |
| TextUtils.CharSplitShape | 02_Embeddings_and_RAG/aimakerspace/text_utils.py:80-84 | chunk k is `text[k*step : min(k*step + chunk_size, len(text))]`, and every chunk is non-empty and at most `chunk_size` long |
| TextUtils.WindowsReassemble | 02_Embeddings_and_RAG/aimakerspace/text_utils.py:82-83 | from any start, the first `step` characters of each window but the last, followed by the whole last window, rebuild the rest of the text |
| TextUtils.CharSplitRoundTrip | 02_Embeddings_and_RAG/aimakerspace/text_utils.py:80-84 | with a non-negative overlap, reassembling the chunks in that way gives back the text |
| TextUtils.SplitAll | 02_Embeddings_and_RAG/aimakerspace/text_utils.py:86-90 | the `extend` loop returns the concatenation of every text's chunks, in input order |
| TextUtils.CharSplitTexts | 02_Embeddings_and_RAG/aimakerspace/text_utils.py:86-90 | `split_texts` of the character splitter equals the flattening of `split` over the inputs |
| TextUtils.ParagraphSplitTexts | 02_Embeddings_and_RAG/aimakerspace/text_utils.py:119-123 | `split_texts` of the paragraph splitter equals the flattening of `split` over the inputs |
| TextUtils.Paragraphs | 02_Embeddings_and_RAG/aimakerspace/text_utils.py:98 | every paragraph is non-empty, stripped and free of newlines |
| TextUtils.StrippedClean | 02_Embeddings_and_RAG/aimakerspace/text_utils.py:98 | stripping newline-free lines and keeping the non-blank ones leaves only clean paragraphs |
| TextUtils.PackLines | 02_Embeddings_and_RAG/aimakerspace/text_utils.py:100-115 | from any tidy chunk under construction, the packed chunks split at newlines give that chunk's lines followed by the remaining paragraphs |
| TextUtils.PackChunks | 02_Embeddings_and_RAG/aimakerspace/text_utils.py:102-115 | every packed chunk is non-empty, and one holding a newline is at most `chunk_size - 1` long |
| TextUtils.ParagraphSplitLines | 02_Embeddings_and_RAG/aimakerspace/text_utils.py:96-117 | splitting every chunk at `'\n'` and flattening gives exactly the stripped non-blank lines of the input, in order |
| TextUtils.ParagraphSplitBounds | 02_Embeddings_and_RAG/aimakerspace/text_utils.py:104-115 | no chunk is empty, and a chunk that joins two or more paragraphs is at most `chunk_size - 1` long |
| TextUtils.LongParagraphWhole | 02_Embeddings_and_RAG/aimakerspace/text_utils.py:104-106 | a paragraph of at least `chunk_size` characters comes out whole, as a chunk of its own |
| TextUtils.WordLen | 02_Embeddings_and_RAG/aimakerspace/text_utils.py:140 | measures the maximal run of non-whitespace at the start of the text |
| TextUtils.Words | 02_Embeddings_and_RAG/aimakerspace/text_utils.py:140 | `split()` yields only non-empty words without whitespace |
| TextUtils.KeepWords | 02_Embeddings_and_RAG/aimakerspace/text_utils.py:141 | a word is kept exactly when it was present and its lower-case form is not a stopword; nothing is added |
| TextUtils.KeepWordsOne | 02_Embeddings_and_RAG/aimakerspace/text_utils.py:141 | a single word is kept exactly when its lower-case form is not a stopword |
| TextUtils.KeepWordsAppend | 02_Embeddings_and_RAG/aimakerspace/text_utils.py:141 | filtering a concatenation filters each part, so every kept word stays in order and with its repeats |
| TextUtils.WordsOfWord | 02_Embeddings_and_RAG/aimakerspace/text_utils.py:140 | a word followed by the end or by whitespace is read as that word, then the words of the rest |
| TextUtils.WordsOfJoin | 02_Embeddings_and_RAG/aimakerspace/text_utils.py:140-142 | `" ".join` of words, split again, gives the same words |
| TextUtils.KeepWordsIdempotent | 02_Embeddings_and_RAG/aimakerspace/text_utils.py:141 | filtering the kept words again keeps them all |
| TextUtils.RemoveStopwordsWords | 02_Embeddings_and_RAG/aimakerspace/text_utils.py:139-142 | the output's words are exactly the input's words, in order, whose lower-case form is not a stopword |
| TextUtils.RemoveStopwordsIdempotent | 02_Embeddings_and_RAG/aimakerspace/text_utils.py:139-142 | removing stopwords twice gives the same text as removing them once |
| GraphState.Merge | 11_Assignment/backend/app/graph/state.py:6-8 | merging appends the update's messages after the untouched history, so the length adds up; `next` is replaced when the update sets it and kept otherwise |
| GraphState.MergeThen | 11_Assignment/backend/app/graph/state.py:7 | two updates merged in succession equal one update carrying both message lists, where the later label wins |
| GraphNodes.BlocksSnoc | 11_Assignment/backend/app/graph/nodes.py:89-107 | one more item appends one more block, numbered after the others |
| GraphNodes.RetrieveNode | 11_Assignment/backend/app/graph/nodes.py:85-97 | the retriever is asked with the last message's content; an empty history is an `IndexError`, a retriever failure propagates, and success yields the Retrieval pair |
| GraphNodes.RetrieveUsesLastMessage | 11_Assignment/backend/app/graph/nodes.py:86 | two histories whose last messages have the same content retrieve the same |
| GraphNodes.RetrievalContentShape | 11_Assignment/backend/app/graph/nodes.py:88-90 | no documents gives the header alone, and each further document appends a block numbered after the others |
| GraphNodes.SearchAgentNode | 11_Assignment/backend/app/graph/nodes.py:99-118 | the executor gets the whole state and its failure propagates; a result gives the search pair whose text follows the `output` cases |
| GraphNodes.SearchDocsShape | 11_Assignment/backend/app/graph/nodes.py:104-107 | a document list gives the header alone when empty, and each further document appends a Result block numbered after the others |
| GraphNodes.SearchOtherShape | 11_Assignment/backend/app/graph/nodes.py:102-111 | a non-empty string `output` passes through and the empty string gives the header; another `output` gives its text; a dictionary without `output`, or a result that is no dictionary, gives its own text |
| GraphNodes.WriterContextFlat | 11_Assignment/backend/app/graph/nodes.py:135-140 | the loop's context is the concatenation, in history order, of what each message adds |
| GraphNodes.WriterContextAppend | 11_Assignment/backend/app/graph/nodes.py:135-140 | the context of a concatenated history is the concatenation of the contexts |
| GraphNodes.WriterContextSnoc | 11_Assignment/backend/app/graph/nodes.py:136-138 | only AI messages named Retrieval or Search add to the context, each as its content between separators |
| GraphNodes.WriterNode | 11_Assignment/backend/app/graph/nodes.py:120-149 | the question is message 0 and the context comes from the source messages; an empty history is an `IndexError`, and the model's failure propagates |
| GraphNodes.RouterNode | 11_Assignment/backend/app/graph/nodes.py:151-178 | no tool call gives `FINISH`; otherwise the first call's `next` is used verbatim, and a missing `next` is a `KeyError`; the update repeats the whole history |
| GraphNodes.RouterDoublesHistory | 11_Assignment/backend/app/graph/nodes.py:169-171 | merged under the `operator.add` reducer, the router's update doubles the history and sets `next` |
| GraphNodes.RouterIgnoresLaterCalls | 11_Assignment/backend/app/graph/nodes.py:168-172 | tool calls after the first do not affect the router |
| GraphTools.HitToDocument | 11_Assignment/backend/app/graph/tools.py:20-21 | the text is the title line, then the content line with the hit's content, then the URL line; the metadata has exactly `source` and `url`, with `source` set to `internet_search` and `url` equal to the URL in the text |
| GraphTools.HitsToDocuments | 11_Assignment/backend/app/graph/tools.py:18-23 | one document per hit, in hit order; no hits give no documents |
| GraphTools.SearchInternetTool | 11_Assignment/backend/app/graph/tools.py:11-23 | a search-engine failure propagates; otherwise the tool returns the converted hits |
| GraphTools.EmptyHit | 11_Assignment/backend/app/graph/tools.py:20-21 | a hit with no keys renders every field as the empty string |
| GraphBuilder.Successor | 11_Assignment/backend/app/graph/builder.py:65-76 | every edge lowers the rank, so the graph is acyclic; Retrieve, Search and Writer always have an edge, and the router's branch is defined exactly on its table's keys |
| GraphBuilder.LabelsAreBranchKeys | 11_Assignment/backend/app/graph/builder.py:59-73 | the router's label set equals the branch table's keys |
| GraphBuilder.RunFromDescends | 11_Assignment/backend/app/graph/builder.py:62-76 | from any node, the executed nodes have strictly decreasing rank, start at that node and never include End |
| GraphBuilder.RunBounded | 11_Assignment/backend/app/graph/builder.py:62-76 | every run starts at Retrieve, executes each node at most once and ends within four node executions, whatever the collaborators answer |
| GraphBuilder.RetrieveStep | 11_Assignment/backend/app/graph/builder.py:62-65 | a finished run began with a successful retrieval and continued at the router |
| GraphBuilder.RouterStep | 11_Assignment/backend/app/graph/builder.py:66-74 | a finished run from the router followed the branch of the label it chose |
| GraphBuilder.WriterStep | 11_Assignment/backend/app/graph/builder.py:76 | a finished run from the writer executed only the writer and appended its pair |
| GraphBuilder.SearchStep | 11_Assignment/backend/app/graph/builder.py:75 | a finished run from Search went on to the writer |
| GraphBuilder.BranchRun | 11_Assignment/backend/app/graph/builder.py:69-76 | after the router, `FINISH` ends at once, `Writer` runs the writer, and `Search` runs the search agent and then the writer |
| GraphBuilder.FirstSteps | 11_Assignment/backend/app/graph/builder.py:62-68 | a finished run is the retrieval, then the router, then the run of its branch |
| GraphBuilder.FinishedPaths | 11_Assignment/backend/app/graph/builder.py:62-76 | a finished run's trace is fixed by the label, so the router runs exactly once, and the writer runs exactly when Search or Writer was chosen |
| GraphBuilder.FinishedHistory | 11_Assignment/backend/app/graph/builder.py:62-76 | the final history has the length that the retrieval pair, the router's doubling and one pair per worker give; the input stays its prefix, and it ends with a Writer reply exactly when Search or Writer was chosen |
| GraphBuilder.SearchFailurePropagates | 11_Assignment/backend/app/graph/builder.py:70-75 | a search-agent failure after the router picked Search crashes the run at Search |
| Agents.RetrieveInformation | 16_Production_RAG_and_Guardrails/langgraph_agent_lib/agents.py:26-38 | the RAG tool never raises: a failure becomes `"Error retrieving information: " + error`; a success gives the answer's `content`, or its text when it has none |
| Agents.DefaultTools | 16_Production_RAG_and_Guardrails/langgraph_agent_lib/agents.py:41-63 | Arxiv is always present, Tavily exactly when the key is set and non-empty, and the RAG tool exactly when a chain is given; the order is Tavily, Arxiv, RAG |
| Agents.SimpleNext | 16_Production_RAG_and_Guardrails/langgraph_agent_lib/agents.py:96-113 | the agent goes to action exactly when the last message has tool calls, and to END otherwise; action always returns to the agent |
| Agents.HelpfulNext | 16_Production_RAG_and_Guardrails/langgraph_agent_lib/agents.py:152-252 | the agent goes to action on tool calls and to the check otherwise; action returns to the agent; the check goes to the agent exactly when the last content contains "not helpful enough", and to END otherwise |
| Agents.ShouldRefineReadsLastOnly | 16_Production_RAG_and_Guardrails/langgraph_agent_lib/agents.py:225-233 | the refinement decision depends on the last message only, so no round counter takes part |
| Agents.FirstNonEmpty | 16_Production_RAG_and_Guardrails/langgraph_agent_lib/agents.py:170-172 | finds the first non-empty message from a position on |
| Agents.FirstResponse | 16_Production_RAG_and_Guardrails/langgraph_agent_lib/agents.py:173-174 | finds the first non-empty message without a `tool_calls` attribute from a position on |
| Agents.ScanDone | 16_Production_RAG_and_Guardrails/langgraph_agent_lib/agents.py:169-174 | once question and response are found, the rest of the scan changes nothing |
| Agents.ScanResponse | 16_Production_RAG_and_Guardrails/langgraph_agent_lib/agents.py:173-174 | after the question, the scan picks the first non-empty message that lacks `tool_calls` |
| Agents.ScanQuestion | 16_Production_RAG_and_Guardrails/langgraph_agent_lib/agents.py:170-172 | the scan takes the first non-empty message as the question |
| Agents.ScanMatchesSearch | 16_Production_RAG_and_Guardrails/langgraph_agent_lib/agents.py:166-174 | the loop's question is the first non-empty message, and its response is the first later non-empty message without a `tool_calls` attribute |
| Agents.ScanPrefix | 16_Production_RAG_and_Guardrails/langgraph_agent_lib/agents.py:169-174 | scanning a longer history is scanning its prefix, then the rest |
| Agents.ScanIgnoresLaterMessages | 16_Production_RAG_and_Guardrails/langgraph_agent_lib/agents.py:169-174 | once question and response are found, later messages, refined answers included, do not change what is evaluated |
| Agents.DigitRunLen | 16_Production_RAG_and_Guardrails/langgraph_agent_lib/agents.py:208 | measures the maximal run of ASCII digits at the start of the text |
| Agents.ScoreWithoutDigits | 16_Production_RAG_and_Guardrails/langgraph_agent_lib/agents.py:207-209 | an evaluation without digits scores 5 |
| Agents.ScoreReadsFirstRun | 16_Production_RAG_and_Guardrails/langgraph_agent_lib/agents.py:207-209 | the score is the value of the first maximal digit run, leading zeros and all; it is not clamped to 1-10 |
| Agents.ScoreLeadingZero | 16_Production_RAG_and_Guardrails/langgraph_agent_lib/agents.py:208-209 | leading zeros are read as `int` reads them: "07/10" scores 7 |
| Agents.ScoreReadsFirstNumber | 16_Production_RAG_and_Guardrails/langgraph_agent_lib/agents.py:207-209 | in particular, a number written out in decimal is read back as itself |
| Agents.RefinementAsksAgain | 16_Production_RAG_and_Guardrails/langgraph_agent_lib/agents.py:214-219 | the refinement instruction contains "not helpful enough" |
| Agents.CheckWithoutPair | 16_Production_RAG_and_Guardrails/langgraph_agent_lib/agents.py:177-233 | with the question or the response missing, the check emits the fixed apology whatever the evaluator would answer, and the graph ends |
| Agents.CheckLowScore | 16_Production_RAG_and_Guardrails/langgraph_agent_lib/agents.py:211-233 | a score of at most 6 emits the refinement instruction for the question, and the graph sends the agent back |
| Agents.CheckHighScore | 16_Production_RAG_and_Guardrails/langgraph_agent_lib/agents.py:221-233 | a higher score re-emits the response unchanged, and the graph ends unless the response itself contains the phrase |
| Agents.CheckEvaluatorFails | 16_Production_RAG_and_Guardrails/langgraph_agent_lib/agents.py:203 | once the pair is found the evaluator is asked, and its exception propagates out of the check |
| Agents.ApologyIsFinal | 16_Production_RAG_and_Guardrails/langgraph_agent_lib/agents.py:178 | the apology does not contain "not helpful enough" |
| Agents.RefinementRepeats | 16_Production_RAG_and_Guardrails/langgraph_agent_lib/agents.py:169-250 | an evaluator that keeps scoring at most 6 sends the agent back after any number of rounds; the code carries no round counter |
| Agents.DirectAnswerGetsApology | 16_Production_RAG_and_Guardrails/langgraph_agent_lib/agents.py:169-178 | an AI message always carries `tool_calls`, so a question answered directly by the model is never taken as the response, and the check apologises |
| Resilience.CacheCall | 16_Production_RAG_and_Guardrails/agent_architecture_analysis.py:173-182 | the wrapped function is called exactly when the key is not stored; a stored value is returned as is; a new value is stored under the key and returned; a failure stores nothing and propagates; no stored entry changes |
| Resilience.CacheTransparent | 16_Production_RAG_and_Guardrails/agent_architecture_analysis.py:176-180 | starting from a consistent cache, every lookup returns what the deterministic function itself returns |
| Resilience.CacheCallsOnce | 16_Production_RAG_and_Guardrails/agent_architecture_analysis.py:177-178 | in any run of lookups the function is called at most once for a key whose call succeeds, and never for a key already stored |
| Resilience.CacheRetriesFailures | 16_Production_RAG_and_Guardrails/agent_architecture_analysis.py:177-178 | a key whose call fails is called again on every lookup |
| Resilience.Prune | 16_Production_RAG_and_Guardrails/agent_architecture_analysis.py:194 | keeps exactly the timestamps t with `now - t < time_window`, each as many times as it occurred, so the count the limiter compares is right |
| Resilience.AllowRequest | 16_Production_RAG_and_Guardrails/agent_architecture_analysis.py:191-199 | a request is allowed exactly when the pruned count is below `max_requests`; allowed appends `now` to the pruned list, denied keeps the pruned list |
| Resilience.AllowRequestKeepsLimit | 16_Production_RAG_and_Guardrails/agent_architecture_analysis.py:196-199 | one request never pushes the retained count past `max_requests` |
| Resilience.RunLimiterBounded | 16_Production_RAG_and_Guardrails/agent_architecture_analysis.py:186-199 | the retained-count bound holds after any sequence of requests |
| Resilience.FreshLimiterBounded | 16_Production_RAG_and_Guardrails/agent_architecture_analysis.py:186-199 | from an empty list, the retained timestamps never exceed `max_requests`, whatever the times |
| Resilience.BurstAllowsAtMostMax | 16_Production_RAG_and_Guardrails/agent_architecture_analysis.py:191-199 | within one window and with time not going backwards, at most `max_requests` requests are allowed |
| Resilience.PruneKeepsAll | 16_Production_RAG_and_Guardrails/agent_architecture_analysis.py:194 | pruning keeps a list whose timestamps are all inside the window |
| Resilience.NewCircuitBreaker | 16_Production_RAG_and_Guardrails/agent_architecture_analysis.py:203-208 | a new breaker, by default with threshold 5 and timeout 60, is CLOSED with no failures and last failure time 0 |
| Resilience.BreakerCall | 16_Production_RAG_and_Guardrails/agent_architecture_analysis.py:210-228 | OPEN within the timeout raises without calling; a success after HALF_OPEN closes with count 0; a success while CLOSED changes nothing, and no success touches the last failure time; a failure counts, records its time and propagates, and it opens the breaker exactly when the count reaches the threshold, otherwise leaving the state as the call found it (OPEN after the timeout having become HALF_OPEN) |
| Resilience.BreakerCallKeepsValid | 16_Production_RAG_and_Guardrails/agent_architecture_analysis.py:210-228 | between calls the breaker is never HALF_OPEN, and an OPEN breaker has reached its threshold |
| Resilience.HalfOpenFailureReopens | 16_Production_RAG_and_Guardrails/agent_architecture_analysis.py:211-227 | a failure during the half-open trial reopens the breaker, because the count was not reset |
| Resilience.RunBreakerValid | 16_Production_RAG_and_Guardrails/agent_architecture_analysis.py:210-228 | the between-calls invariant survives any sequence of calls |
| Resilience.FreshBreakerValid | 16_Production_RAG_and_Guardrails/agent_architecture_analysis.py:203-228 | starting from a new breaker, the invariant holds after any sequence of calls |
| Resilience.FailuresOpen | 16_Production_RAG_and_Guardrails/agent_architecture_analysis.py:223-227 | consecutive failures of a closed breaker raise the count by one each, and open it exactly when the count reaches the threshold |
| Password.AsciiLetters | 13_MCP/server.py:34 | `ascii_letters` holds the 52 ASCII letters and nothing else |
| Password.Digits | 13_MCP/server.py:37 | `digits` holds the ten ASCII digits and nothing else |
| Password.Characters | 13_MCP/server.py:34-40 | the set always starts with the letters; a character is in it exactly when it is a letter, a digit with numbers on, or a listed symbol with symbols on |
| Password.CharactersByFlags | 13_MCP/server.py:36-40 | digits are included exactly when `include_numbers`, and the symbols exactly when `include_symbols` |
| Password.Draw | 13_MCP/server.py:42 | the password has `length` characters, none when `length <= 0`, each picked from the character set |
| Password.GeneratePassword | 13_MCP/server.py:43 | the result starts with `"Generated password: "` and is followed by exactly `length` characters, none when `length <= 0` |
| Password.GeneratedPasswordShape | 13_MCP/server.py:32-43 | after the prefix comes a password of the asked length whose every character belongs to the set the flags select |
| Password.DefaultPassword | 13_MCP/server.py:32-43 | called with the defaults, the password has 12 characters, each a letter, a digit or a symbol |

## Left out

- Agent construction in `create_langgraph_agent` and `create_helpful_langgraph_agent`, including the model's `bind_tools` calls. The helpful agent calls `model.bind_tools(temperature=temperature)` without the `tools` argument that the simple agent passes; whether that raises or binds no tools depends on the model class, which is not part of this model. `Agents.HelpfulNext` states the routing of the graph as the code wires it.
- Calls into models, retrievers, rerankers, embeddings, Tavily, Arxiv and agent executors, and their prompts. Their answers are inputs.
- Document loading: the text file loader, the backend's retriever construction and the PDF scripts. These are file, PDF and vector-store I/O.
- The FastAPI/SSE server, the A2A client, the React page and the MCP demo scripts. These are I/O and UI plumbing. The `recursion_limit` passed to LangGraph is a configuration value with no logic of its own.
- `web_search` and `roll_dice` in the MCP server. They call an outside client and a dice roller that is not part of this model.
- Benchmarking, cost and latency arithmetic, and charts in the architecture analysis. These are floating point and wall-clock measurements.
- Python's Unicode case mapping. `Lower` maps only `A`-`Z`. Unicode digits matched by `\d` are also left out: `Score` reads ASCII digits only.
- `simple_cache`'s key text. Python's `str` of the arguments is not modelled, so a lookup takes the key text as given.
- Timestamps. `time.time()` returns floats; the model uses integer times.
- Object reprs. `str(result)` and `str(dict)` reprs are supplied as text.
- Message contents. Every content is a string.
- `add_messages`. It replaces messages with equal IDs. The helpful agent's state uses it, but the check and routing functions modelled here only read the history, so ID replacement does not arise.
- `tool_belt` in the graph's tools module. It is a constant one-element list, and wrapping `search_internet` as a LangChain tool is library code.
- Resilience.BreakerCall: the wrapped call is not made when the breaker rejects. The caller's arguments are not modelled, only the outcome the call would have.
- Password.Draw: `random.choice` is replaced by caller-supplied indices reduced modulo the set size. Uniformity is not modelled.
- TextUtils.CharSplitShape, TextUtils.WindowsShape: proved for `chunk_size >= 1`. The constructor also admits a non-positive size with a more negative overlap; `CharSplit` still models those splitters, but they are not covered by these lemmas.
- Agents.ScoreReadsFirstRun, Agents.ScoreReadsFirstNumber: CPython's limit on converting long digit strings with `int` (4300 digits by default since 3.11, backported to 3.10.7 and 3.9.14) is not modelled. Past that limit `int` raises `ValueError`, which would end `check_helpfulness`; the model still returns the run's value, and `ScoreReadsFirstNumber` reads back every natural however long its decimal form.
- Base.NatToStringRoundTrip: the same CPython conversion limit is not modelled, so the round trip is stated for every natural, including those whose decimal form is longer than the limit.
- LangGraph's default step limit. The helpful agent's graph is compiled without a `recursion_limit`, so the library's default limit ends a long refinement cycle with `GraphRecursionError`. That limit is library behaviour and is not modelled; `Agents.RefinementRepeats` states only the routing.
- TextUtils.CharSplitRoundTrip: proved for a non-negative overlap only. With a negative overlap the windows leave gaps, so the text cannot be rebuilt.

=== FILE: agents.dfy ===
/** The two agent graphs of `langgraph_agent_lib`: a tool-calling loop, and
    the same loop followed by a helpfulness check that can send the agent
    back for another attempt. The model and the evaluator are collaborators:
    their replies are inputs. */
module Agents {
  import opened Base

  /** A chat message. `toolCalls` is None when the message has no
      `tool_calls` attribute at all (human and tool messages), and the list of
      requested calls otherwise (AI messages, where the list may be empty). */
  datatype AgentMessage = AgentMessage(content: string, toolCalls: Option<seq<string>>)

  /** `AIMessage(content=...)`: an AI message with an empty call list. */
  function AIReply(content: string): AgentMessage {
    AgentMessage(content, Some([]))
  }

  // ---------------------------------------------------------------------
  // Tools
  // ---------------------------------------------------------------------

  /** What the RAG chain answered: an object with a `content` attribute, or
      another object shown by its `str`. */
  datatype ChainAnswer = WithContent(content: string) | WithoutContent(repr: string)

  const RagErrorPrefix := "Error retrieving information: "

  /** The `retrieve_information` tool: it never raises; a failure of the
      chain becomes a message. */
  function RetrieveInformation(query: string, chain: string -> Result<ChainAnswer>): (r: string)
    ensures chain(query).Err? ==> r == RagErrorPrefix + chain(query).error
    ensures chain(query).Ok? && chain(query).value.WithContent? ==> r == chain(query).value.content
    ensures chain(query).Ok? && chain(query).value.WithoutContent? ==> r == chain(query).value.repr
  {
    match chain(query)
    case Err(e) => RagErrorPrefix + e
    case Ok(WithContent(c)) => c
    case Ok(WithoutContent(s)) => s
  }

  datatype Tool = Tavily | Arxiv | RagTool

  /** Position of each tool in the default list. */
  function ToolOrder(t: Tool): nat {
    match t
    case Tavily => 0
    case Arxiv => 1
    case RagTool => 2
  }

  /** `get_default_tools`: Tavily when `TAVILY_API_KEY` is set to a
      non-empty value, Arxiv always, the RAG tool when a chain is given, in
      that order and each at most once. */
  function DefaultTools(tavilyKey: Option<string>, hasChain: bool): (tools: seq<Tool>)
    ensures Arxiv in tools
    ensures Tavily in tools <==> tavilyKey.Some? && tavilyKey.value != ""
    ensures RagTool in tools <==> hasChain
    ensures forall i, j :: 0 <= i < j < |tools| ==> ToolOrder(tools[i]) < ToolOrder(tools[j])
  {
    (if tavilyKey.Some? && tavilyKey.value != "" then [Tavily] else [])
    + [Arxiv]
    + (if hasChain then [RagTool] else [])
  }

  // ---------------------------------------------------------------------
  // Routing functions and graph tables
  // ---------------------------------------------------------------------

  /** `getattr(m, "tool_calls", None)` is truthy. */
  predicate HasToolCalls(m: AgentMessage) {
    m.toolCalls.Some? && |m.toolCalls.value| > 0
  }

  datatype SimpleNode = SimpleAgent | SimpleAction | SimpleEnd

  /** The simple agent's `should_continue`. */
  function SimpleShouldContinue(msgs: seq<AgentMessage>): SimpleNode
    requires |msgs| > 0
  {
    if HasToolCalls(msgs[|msgs| - 1]) then SimpleAction else SimpleEnd
  }

  /** The simple agent's edge table: agent branches on `should_continue`,
      action goes back to agent. */
  function SimpleNext(n: SimpleNode, msgs: seq<AgentMessage>): (m: SimpleNode)
    requires n != SimpleEnd && |msgs| > 0
    ensures n == SimpleAction ==> m == SimpleAgent
    ensures n == SimpleAgent ==> (m == SimpleAction <==> HasToolCalls(msgs[|msgs| - 1]))
    ensures n == SimpleAgent ==> (m == SimpleEnd <==> !HasToolCalls(msgs[|msgs| - 1]))
  {
    match n
    case SimpleAgent => SimpleShouldContinue(msgs)
    case SimpleAction => SimpleAgent
  }

  datatype HelpfulNode = HelpAgent | HelpAction | HelpCheck | HelpEnd

  /** The helpful agent's `should_continue`. */
  function HelpfulShouldContinue(msgs: seq<AgentMessage>): HelpfulNode
    requires |msgs| > 0
  {
    if HasToolCalls(msgs[|msgs| - 1]) then HelpAction else HelpCheck
  }

  const NotHelpful := "not helpful enough"

  /** `should_refine`: back to the agent when the last message asks for a
      refinement. */
  function ShouldRefine(msgs: seq<AgentMessage>): HelpfulNode
    requires |msgs| > 0
  {
    if Contains(msgs[|msgs| - 1].content, NotHelpful) then HelpAgent else HelpEnd
  }

  /** The helpful agent's edge table. */
  function HelpfulNext(n: HelpfulNode, msgs: seq<AgentMessage>): (m: HelpfulNode)
    requires n != HelpEnd && |msgs| > 0
    ensures n == HelpAction ==> m == HelpAgent
    ensures n == HelpAgent ==> (m == HelpAction <==> HasToolCalls(msgs[|msgs| - 1]))
    ensures n == HelpAgent ==> (m == HelpCheck <==> !HasToolCalls(msgs[|msgs| - 1]))
    ensures n == HelpCheck ==> (m == HelpAgent <==> Contains(msgs[|msgs| - 1].content, NotHelpful))
    ensures n == HelpCheck ==> (m == HelpEnd <==> !Contains(msgs[|msgs| - 1].content, NotHelpful))
  {
    match n
    case HelpAgent => HelpfulShouldContinue(msgs)
    case HelpAction => HelpAgent
    case HelpCheck => ShouldRefine(msgs)
  }

  /** The check's routing reads only the last message: no counter of
      earlier rounds takes part in the decision. */
  lemma ShouldRefineReadsLastOnly(h1: seq<AgentMessage>, h2: seq<AgentMessage>, m: AgentMessage)
    ensures ShouldRefine(h1 + [m]) == ShouldRefine(h2 + [m])
  {
  }

  // ---------------------------------------------------------------------
  // check_helpfulness
  // ---------------------------------------------------------------------

  /** The scan's findings so far. */
  datatype Found = Found(question: Option<string>, response: Option<string>)

  /** One iteration of the scan: the first non-empty message is the
      question; after it, the first non-empty message with no `tool_calls`
      attribute is the response. */
  function ScanStep(acc: Found, m: AgentMessage): Found {
    if m.content == "" then acc
    else if acc.question.None? then Found(Some(m.content), acc.response)
    else if acc.response.None? && m.toolCalls.None? then Found(acc.question, Some(m.content))
    else acc
  }

  /** The scan loop from index i. */
  function ScanFrom(msgs: seq<AgentMessage>, i: nat, acc: Found): Found
    requires i <= |msgs|
    decreases |msgs| - i
  {
    if i == |msgs| then acc else ScanFrom(msgs, i + 1, ScanStep(acc, msgs[i]))
  }

  function Scan(msgs: seq<AgentMessage>): Found {
    ScanFrom(msgs, 0, Found(None, None))
  }

  /** Reference search: the first index from i with non-empty content. */
  function FirstNonEmpty(msgs: seq<AgentMessage>, i: nat): (r: Option<nat>)
    requires i <= |msgs|
    ensures r.Some? ==> i <= r.value < |msgs| && msgs[r.value].content != ""
    ensures forall k :: i <= k < |msgs| && (r.None? || k < r.value) ==> msgs[k].content == ""
    decreases |msgs| - i
  {
    if i == |msgs| then None
    else if msgs[i].content != "" then Some(i)
    else FirstNonEmpty(msgs, i + 1)
  }

  /** Reference search: the first index from i with non-empty content and
      no `tool_calls` attribute. */
  function FirstResponse(msgs: seq<AgentMessage>, i: nat): (r: Option<nat>)
    requires i <= |msgs|
    ensures r.Some? ==> i <= r.value < |msgs| && msgs[r.value].content != "" && msgs[r.value].toolCalls.None?
    ensures forall k :: i <= k < |msgs| && (r.None? || k < r.value) ==>
      msgs[k].content == "" || msgs[k].toolCalls.Some?
    decreases |msgs| - i
  {
    if i == |msgs| then None
    else if msgs[i].content != "" && msgs[i].toolCalls.None? then Some(i)
    else FirstResponse(msgs, i + 1)
  }

  lemma {:induction false} ScanDone(msgs: seq<AgentMessage>, i: nat, acc: Found)
    requires i <= |msgs| && acc.question.Some? && acc.response.Some?
    ensures ScanFrom(msgs, i, acc) == acc
    decreases |msgs| - i
  {
    if i < |msgs| {
      ScanDone(msgs, i + 1, ScanStep(acc, msgs[i]));
    }
  }

  lemma {:induction false} ScanResponse(msgs: seq<AgentMessage>, i: nat, q: string)
    requires i <= |msgs|
    ensures ScanFrom(msgs, i, Found(Some(q), None))
         == (match FirstResponse(msgs, i)
             case None => Found(Some(q), None)
             case Some(k) => Found(Some(q), Some(msgs[k].content)))
    decreases |msgs| - i
  {
    if i < |msgs| {
      var acc := Found(Some(q), None);
      if msgs[i].content != "" && msgs[i].toolCalls.None? {
        ScanDone(msgs, i + 1, ScanStep(acc, msgs[i]));
      } else {
        assert ScanStep(acc, msgs[i]) == acc;
        ScanResponse(msgs, i + 1, q);
      }
    }
  }

  lemma {:induction false} ScanQuestion(msgs: seq<AgentMessage>, i: nat)
    requires i <= |msgs|
    ensures ScanFrom(msgs, i, Found(None, None))
         == (match FirstNonEmpty(msgs, i)
             case None => Found(None, None)
             case Some(k) => ScanFrom(msgs, k + 1, Found(Some(msgs[k].content), None)))
    decreases |msgs| - i
  {
    if i < |msgs| {
      if msgs[i].content == "" {
        ScanQuestion(msgs, i + 1);
      }
    }
  }

  /** The scan agrees with the reference searches: the question is the
      first non-empty message, the response the first later non-empty
      message without a `tool_calls` attribute. */
  lemma ScanMatchesSearch(msgs: seq<AgentMessage>)
    ensures var f := Scan(msgs);
      match FirstNonEmpty(msgs, 0)
      case None => f == Found(None, None)
      case Some(i) =>
        f.question == Some(msgs[i].content) &&
        match FirstResponse(msgs, i + 1)
        case None => f.response.None?
        case Some(j) => f.response == Some(msgs[j].content)
  {
    ScanQuestion(msgs, 0);
    match FirstNonEmpty(msgs, 0)
    case None =>
    case Some(i) => ScanResponse(msgs, i + 1, msgs[i].content);
  }

  /** Once question and response are found, later messages (a refined
      answer included) do not change what is evaluated. */
  lemma {:induction false} ScanIgnoresLaterMessages(msgs: seq<AgentMessage>, more: seq<AgentMessage>)
    requires Scan(msgs).question.Some? && Scan(msgs).response.Some?
    ensures Scan(msgs + more) == Scan(msgs)
  {
    ScanPrefix(msgs, more, 0, Found(None, None));
    ScanDone(msgs + more, |msgs|, Scan(msgs));
  }

  lemma {:induction false} ScanPrefix(msgs: seq<AgentMessage>, more: seq<AgentMessage>, i: nat, acc: Found)
    requires i <= |msgs|
    ensures ScanFrom(msgs + more, i, acc) == ScanFrom(msgs + more, |msgs|, ScanFrom(msgs, i, acc))
    decreases |msgs| - i
  {
    if i < |msgs| {
      assert (msgs + more)[i] == msgs[i];
      ScanPrefix(msgs, more, i + 1, ScanStep(acc, msgs[i]));
    }
  }

  /** The length of the ASCII digit run at the start of `s`, the building
      block of `re.search(r'(\d+)', s)`. */
  function DigitRunLen(s: string): (n: nat)
    ensures n <= |s|
    ensures forall i :: 0 <= i < n ==> IsDigit(s[i])
    ensures n < |s| ==> !IsDigit(s[n])
    decreases |s|
  {
    if |s| == 0 || !IsDigit(s[0]) then 0 else 1 + DigitRunLen(s[1..])
  }

  function FirstDigitRun(s: string): (r: Option<string>)
    ensures r.Some? ==> |r.value| > 0
    decreases |s|
  {
    if |s| == 0 then None
    else if IsDigit(s[0]) then Some(s[..DigitRunLen(s)])
    else FirstDigitRun(s[1..])
  }

  const DefaultScore: nat := 5

  /** The evaluator's score: the value of the first digit run, or 5. */
  function Score(evaluation: string): nat {
    match FirstDigitRun(evaluation)
    case Some(d) => DigitsValue(d)
    case None => DefaultScore
  }

  /** A text without digits scores 5. */
  lemma {:induction false} ScoreWithoutDigits(s: string)
    requires forall i :: 0 <= i < |s| ==> !IsDigit(s[i])
    ensures Score(s) == DefaultScore
  {
    NoDigitRun(s);
  }

  lemma {:induction false} NoDigitRun(s: string)
    requires forall i :: 0 <= i < |s| ==> !IsDigit(s[i])
    ensures FirstDigitRun(s).None?
    decreases |s|
  {
    if |s| > 0 {
      NoDigitRun(s[1..]);
    }
  }

  /** The score is the value of the first maximal digit run, leading zeros
      and all: it is not clamped to 1..10. */
  lemma {:induction false} ScoreReadsFirstRun(p: string, d: string, rest: string)
    requires forall i :: 0 <= i < |p| ==> !IsDigit(p[i])
    requires |d| > 0 && forall i :: 0 <= i < |d| ==> IsDigit(d[i])
    requires rest == [] || !IsDigit(rest[0])
    ensures Score(p + d + rest) == DigitsValue(d)
    decreases |p|
  {
    var s := p + d + rest;
    if |p| == 0 {
      assert s == d + rest;
      assert DigitRunLen(s) == |d| by {
        DigitRunOf(d, rest);
      }
      assert s[..|d|] == d;
    } else {
      assert s[1..] == p[1..] + d + rest;
      ScoreReadsFirstRun(p[1..], d, rest);
    }
  }

  /** A digit run followed by the end or a non-digit is read whole. */
  lemma {:induction false} DigitRunOf(d: string, rest: string)
    requires forall i :: 0 <= i < |d| ==> IsDigit(d[i])
    requires rest == [] || !IsDigit(rest[0])
    ensures DigitRunLen(d + rest) == |d|
    decreases |d|
  {
    if |d| == 0 {
      assert d + rest == rest;
    } else {
      assert (d + rest)[1..] == d[1..] + rest;
      DigitRunOf(d[1..], rest);
    }
  }

  /** In particular, a number the evaluator writes out is read back as itself. */
  lemma ScoreReadsFirstNumber(p: string, n: nat, rest: string)
    requires forall i :: 0 <= i < |p| ==> !IsDigit(p[i])
    requires rest == [] || !IsDigit(rest[0])
    ensures Score(p + NatToString(n) + rest) == n
  {
    ScoreReadsFirstRun(p, NatToString(n), rest);
    NatToStringRoundTrip(n);
  }

  /** Leading zeros are read as `int` reads them: "07" scores 7. */
  lemma ScoreLeadingZero()
    ensures Score("07/10") == 7
  {
    ScoreReadsFirstRun("", "07", "/10");
    assert "" + "07" + "/10" == "07/10";
    assert "07"[..1] == "0";
  }

  const Indent := "            "
  /** The apology, written in short pieces so that its characters can be
      enumerated. */
  const Apology := "I apologize, " + "but I couldn't " + "process your " + "request properly."

  /** The refinement instruction, with its line breaks and indentation:
      the lead, the phrase `should_refine` looks for, then the score and
      the question. */
  function RefinementText(score: nat, question: string): string {
    RefinementLead + NotHelpful + RefinementTail(score, question)
  }

  const RefinementLead := "\n" + Indent + "The previous response was "

  function RefinementTail(score: nat, question: string): string {
    " (score: " + NatToString(score) + "/10). \n"
    + Indent + "Please provide a more helpful, accurate, and comprehensive response to: \"" + question + "\"\n"
    + Indent + "\n"
    + Indent + "Consider using the available tools to gather better information if needed.\n"
    + Indent
  }

  lemma RefinementAsksAgain(score: nat, question: string)
    ensures Contains(RefinementText(score, question), NotHelpful)
  {
    ContainsMiddle(RefinementLead, NotHelpful, RefinementTail(score, question));
  }

  /** `check_helpfulness`: the message it appends. The evaluator is asked
      only once the pair is found, and an exception it raises propagates;
      `evaluation` is the text of its answer. */
  function CheckHelpfulness(msgs: seq<AgentMessage>, evaluation: Result<string>): Result<AgentMessage> {
    var f := Scan(msgs);
    if f.question.None? || f.response.None? then Ok(AIReply(Apology))
    else
      match evaluation
      case Err(e) => Err(e)
      case Ok(text) =>
        if Score(text) <= 6 then Ok(AIReply(RefinementText(Score(text), f.question.value)))
        else Ok(AIReply(f.response.value))
  }

  /** With the question or the response missing, the check apologises and
      the run ends. */
  lemma CheckWithoutPair(msgs: seq<AgentMessage>, evaluation: Result<string>)
    requires Scan(msgs).question.None? || Scan(msgs).response.None?
    ensures var out := CheckHelpfulness(msgs, evaluation);
      out.Ok? && out.value.content == Apology && ShouldRefine(msgs + [out.value]) == HelpEnd
  {
    ApologyIsFinal();
  }

  /** A score of at most 6 asks for a refinement of the question, and the
      graph sends the agent back. */
  lemma CheckLowScore(msgs: seq<AgentMessage>, evaluation: string)
    requires Scan(msgs).question.Some? && Scan(msgs).response.Some?
    requires Score(evaluation) <= 6
    ensures var out := CheckHelpfulness(msgs, Ok(evaluation));
      out.Ok? && out.value.content == RefinementText(Score(evaluation), Scan(msgs).question.value) &&
      ShouldRefine(msgs + [out.value]) == HelpAgent
  {
    var sc, q := Score(evaluation), Scan(msgs).question.value;
    var text := RefinementText(sc, q);
    assert CheckHelpfulness(msgs, Ok(evaluation)) == Ok(AIReply(text));
    RefinementAsksAgain(sc, q);
    ShouldRefineLast(msgs, AIReply(text));
  }

  /** `should_refine` after appending `m` looks at `m` alone. */
  lemma ShouldRefineLast(msgs: seq<AgentMessage>, m: AgentMessage)
    ensures ShouldRefine(msgs + [m]) == (if Contains(m.content, NotHelpful) then HelpAgent else HelpEnd)
  {
    assert (msgs + [m])[|msgs + [m]| - 1] == m;
  }

  /** A higher score re-emits the response unchanged; the run ends unless
      the response itself contains the refinement phrase. */
  lemma CheckHighScore(msgs: seq<AgentMessage>, evaluation: string)
    requires Scan(msgs).question.Some? && Scan(msgs).response.Some?
    requires Score(evaluation) > 6
    ensures var out := CheckHelpfulness(msgs, Ok(evaluation));
      out.Ok? && out.value.content == Scan(msgs).response.value &&
      (ShouldRefine(msgs + [out.value]) == HelpAgent <==> Contains(Scan(msgs).response.value, NotHelpful))
  {
  }

  /** Once the pair is found the evaluator is asked, and its exception
      propagates out of the check. */
  lemma CheckEvaluatorFails(msgs: seq<AgentMessage>, e: string)
    requires Scan(msgs).question.Some? && Scan(msgs).response.Some?
    ensures CheckHelpfulness(msgs, Err(e)) == Err(e)
  {
  }

  lemma OccurrenceShowsChar(s: string, sub: string, i: nat, k: nat)
    requires i <= |s| && k < |sub|
    ensures OccursAt(s, sub, i) ==> sub[k] in s
  {
    if OccursAt(s, sub, i) {
      assert s[i + k] == sub[k];
    }
  }

  /** A text lacking one of the characters of `sub` does not contain `sub`. */
  lemma MissingCharNotContained(s: string, sub: string, c: char)
    requires c in sub && c !in s
    ensures !Contains(s, sub)
  {
    var k :| 0 <= k < |sub| && sub[k] == c;
    forall i | 0 <= i <= |s|
      ensures !OccursAt(s, sub, i)
    {
      OccurrenceShowsChar(s, sub, i, k);
    }
  }

  /** The apology has no `h`, so it never asks for a refinement. */
  lemma ApologyIsFinal()
    ensures !Contains(Apology, NotHelpful)
  {
    assert NotHelpful[4] == 'h';
    MissingCharNotContained(Apology, NotHelpful, 'h');
  }

  /** A low score keeps sending the agent back: the evaluated pair never
      changes once found, so an evaluator that keeps scoring it at most 6
      makes the check route to the agent again after any number of rounds. */
  lemma RefinementRepeats(msgs: seq<AgentMessage>, more: seq<AgentMessage>, evaluation: string)
    requires Scan(msgs).question.Some? && Scan(msgs).response.Some?
    requires Score(evaluation) <= 6
    ensures var h := msgs + more;
      CheckHelpfulness(h, Ok(evaluation)).Ok? &&
      ShouldRefine(h + [CheckHelpfulness(h, Ok(evaluation)).value]) == HelpAgent
  {
    ScanIgnoresLaterMessages(msgs, more);
    CheckLowScore(msgs + more, evaluation);
  }

  /** A reply that carries a `tool_calls` attribute, as every AI message
      does, is never taken as the response: a question answered directly by
      the model gets the apology. */
  lemma DirectAnswerGetsApology(question: string, answer: string, evaluation: Result<string>)
    requires question != ""
    ensures CheckHelpfulness([AgentMessage(question, None), AIReply(answer)], evaluation)
         == Ok(AIReply(Apology))
  {
    var msgs := [AgentMessage(question, None), AIReply(answer)];
    ScanMatchesSearch(msgs);
    assert FirstNonEmpty(msgs, 0) == Some(0);
    assert FirstResponse(msgs, 1) == None by {
      assert FirstResponse(msgs, 2) == None;
    }
  }
}

=== FILE: base.dfy ===
/** Shared vocabulary: optional values, results carrying an error text,
    and the few string helpers the Python code relies on (decimal rendering
    of integers, substring search). */
module Base {

  datatype Option<+T> = None | Some(value: T)

  /** A computation that either returns a value or raises an exception,
      whose text is kept as the error. */
  datatype Result<+T> = Ok(value: T) | Err(error: string)

  /** The line break the graph's texts write as `"\\n"`: the two
      characters backslash and `n`, not a newline. */
  const Sep := "\\n"

  /** An ASCII decimal digit. */
  predicate IsDigit(c: char) { '0' <= c <= '9' }

  /** The decimal digit for 0 <= d < 10. */
  function Digit(d: nat): (c: char)
    requires d < 10
    ensures IsDigit(c)
  {
    "0123456789"[d]
  }

  /** `str(n)` for a non-negative Python int. */
  function NatToString(n: nat): (s: string)
    ensures |s| > 0
    ensures forall i :: 0 <= i < |s| ==> IsDigit(s[i])
    decreases n
  {
    if n < 10 then [Digit(n)] else NatToString(n / 10) + [Digit(n % 10)]
  }

  /** The value of a string of ASCII decimal digits, as `int(s)` reads it. */
  function DigitsValue(s: string): nat
    decreases |s|
  {
    if |s| == 0 then 0
    else DigitsValue(s[..|s| - 1]) * 10 + DigitValue(s[|s| - 1])
  }

  function DigitValue(c: char): (d: nat)
    ensures d < 10
  {
    if IsDigit(c) then (c as int - '0' as int) as nat else 0
  }

  /** Reading back a rendered non-negative integer gives the integer. */
  lemma {:induction false} NatToStringRoundTrip(n: nat)
    ensures DigitsValue(NatToString(n)) == n
    decreases n
  {
    var s := NatToString(n);
    if n < 10 {
      assert s[..|s| - 1] == [];
    } else {
      NatToStringRoundTrip(n / 10);
      assert s[..|s| - 1] == NatToString(n / 10);
      assert s[|s| - 1] == Digit(n % 10);
    }
  }

  /** `sub in s` for Python strings. */
  predicate Contains(s: string, sub: string) {
    exists i :: 0 <= i <= |s| && OccursAt(s, sub, i)
  }

  /** `sub` occurs in `s` starting at index `i`. */
  predicate OccursAt(s: string, sub: string, i: nat)
    requires i <= |s|
  {
    sub <= s[i..]
  }

  lemma ContainsMiddle(a: string, sub: string, b: string)
    ensures Contains(a + sub + b, sub)
  {
    var s := a + sub + b;
    assert s[|a|..] == sub + b;
    assert OccursAt(s, sub, |a|);
  }

  /** Flattening one level of a nested sequence, as repeated `list.extend`. */
  function Flatten<T>(xss: seq<seq<T>>): seq<T>
    decreases |xss|
  {
    if |xss| == 0 then [] else xss[0] + Flatten(xss[1..])
  }

  lemma {:induction false} FlattenAppend<T>(a: seq<seq<T>>, b: seq<seq<T>>)
    ensures Flatten(a + b) == Flatten(a) + Flatten(b)
    decreases |a|
  {
    if |a| == 0 {
      assert a + b == b;
    } else {
      assert (a + b)[1..] == a[1..] + b;
      FlattenAppend(a[1..], b);
    }
  }
}

=== FILE: graph_builder.dfy ===
/** `create_graph`: the node and edge table of the ManualAIze graph and the
    run it induces, as a transition system over
    {Retrieve, Router, Search, Writer, End}. The router's decision comes from
    a collaborator, so every property below holds whatever the router says. */
module GraphBuilder {
  import opened Base
  import opened GraphState
  import opened GraphNodes

  datatype Node = Retrieve | Router | Search | Writer | End

  /** The workers the router chooses between. */
  const Members: seq<string> := ["Search", "Writer"]

  const Entry: Node := Retrieve

  /** The router's conditional edge, keyed by the `next` label. */
  const BranchTable: map<string, Node> := map["Search" := Search, "Writer" := Writer, "FINISH" := End]

  const NoBranch := "no branch for the router's label"

  /** The collaborators each node calls. */
  datatype Collaborators = Collaborators(
    retriever: string -> Result<seq<string>>,
    searchAgent: State -> Result<AgentResult>,
    writer: (string, string) -> Result<string>,
    router: seq<Message> -> Result<seq<ToolCall>>)

  /** Distance to End along the edges. */
  function Rank(n: Node): nat {
    match n
    case Retrieve => 4
    case Router => 3
    case Search => 2
    case Writer => 1
    case End => 0
  }

  /** The edge table, read after the node's update has been merged. Every
      edge lowers the rank, so the graph is acyclic; the fixed edges never
      fail, and the router's branch is defined exactly on the table's keys. */
  function Successor(n: Node, s: State): (r: Result<Node>)
    requires n != End
    ensures r.Ok? ==> Rank(r.value) < Rank(n)
    ensures n != Router ==> r.Ok?
    ensures n == Router ==> (r.Ok? <==> s.next.Some? && s.next.value in BranchTable)
  {
    match n
    case Retrieve => Ok(Router)
    case Router =>
      if s.next.Some? && s.next.value in BranchTable then Ok(BranchTable[s.next.value])
      else Err(NoBranch)
    case Search => Ok(Writer)
    case Writer => Ok(End)
  }

  /** Running one node. */
  function Execute(n: Node, s: State, env: Collaborators): Result<Update>
    requires n != End
  {
    match n
    case Retrieve => RetrieveNode(s, env.retriever)
    case Router => RouterNode(s, env.router)
    case Search => SearchAgentNode(s, env.searchAgent, "Search")
    case Writer => WriterNode(s, env.writer)
  }

  /** A run: the nodes executed, in order, and how it ended. */
  datatype Outcome =
    | Finished(trace: seq<Node>, final: State)
    | Crashed(trace: seq<Node>, error: string)

  function Prepend(n: Node, o: Outcome): Outcome {
    match o
    case Finished(t, f) => Finished([n] + t, f)
    case Crashed(t, e) => Crashed([n] + t, e)
  }

  /** The executor from node `n`: run it, merge its update, follow the edge. */
  function RunFrom(n: Node, s: State, env: Collaborators): Outcome
    decreases Rank(n)
  {
    if n == End then Finished([], s)
    else
      match Execute(n, s, env)
      case Err(e) => Crashed([n], e)
      case Ok(u) =>
        var s' := Merge(s, u);
        match Successor(n, s')
        case Err(e) => Crashed([n], e)
        case Ok(m) => Prepend(n, RunFrom(m, s', env))
  }

  /** `graph.invoke(input)`. */
  function Run(input: State, env: Collaborators): Outcome {
    RunFrom(Entry, input, env)
  }

  /** The router's labels are exactly the keys of its branch. */
  lemma LabelsAreBranchKeys()
    ensures (set l | l in RouterOptions(Members)) == BranchTable.Keys
  {
    var opts := RouterOptions(Members);
    assert opts == ["FINISH", "Search", "Writer"];
    assert "FINISH" in opts && "Search" in opts && "Writer" in opts;
  }

  /** Ranks strictly decrease along `t`. */
  predicate Descending(t: seq<Node>) {
    forall i, j :: 0 <= i < j < |t| ==> Rank(t[i]) > Rank(t[j])
  }

  lemma DescendingCons(n: Node, t: seq<Node>)
    requires Descending(t) && forall i :: 0 <= i < |t| ==> Rank(t[i]) < Rank(n)
    ensures Descending([n] + t)
  {
    var t' := [n] + t;
    forall i, j | 0 <= i < j < |t'| ensures Rank(t'[i]) > Rank(t'[j]) {
      assert t'[j] == t[j - 1];
      if i > 0 {
        assert t'[i] == t[i - 1];
      }
    }
  }

  /** From `n`, the nodes executed have strictly decreasing rank, start at
      `n`, never include End, and are at most Rank(n) in number. */
  lemma {:induction false} RunFromDescends(n: Node, s: State, env: Collaborators)
    ensures var t := RunFrom(n, s, env).trace;
      && |t| <= Rank(n)
      && (n != End ==> |t| > 0 && t[0] == n)
      && End !in t
      && (forall i :: 0 <= i < |t| ==> Rank(t[i]) <= Rank(n))
      && Descending(t)
    decreases Rank(n)
  {
    if n != End {
      match Execute(n, s, env)
      case Err(e) =>
      case Ok(u) =>
        var s' := Merge(s, u);
        match Successor(n, s')
        case Err(e) =>
        case Ok(m) =>
          RunFromDescends(m, s', env);
          var t' := RunFrom(m, s', env).trace;
          assert RunFrom(n, s, env).trace == [n] + t';
          DescendingCons(n, t');
    }
  }

  /** Whatever the collaborators do, a run executes each node at most once,
      starts at Retrieve, and ends within four node executions. */
  lemma RunBounded(input: State, env: Collaborators)
    ensures var t := Run(input, env).trace;
      && 0 < |t| <= 4
      && t[0] == Retrieve
      && (forall i, j :: 0 <= i < j < |t| ==> t[i] != t[j])
  {
    RunFromDescends(Entry, input, env);
  }

  /** The state after the retrieval step succeeded. */
  function AfterRetrieve(input: State, docs: seq<string>): State {
    Merge(input, Reply("Retrieval", RetrievalContent(docs)))
  }

  /** The state after the router chose `choice`. */
  function AfterRouter(s: State, choice: string): State {
    Merge(s, Update(Some(s.messages), Some(Some(choice))))
  }

  /** The router's label, when the router succeeded on `s`. */
  function Decision(s: State, env: Collaborators): Option<string> {
    match RouterNode(s, env.router)
    case Ok(u) => if u.next.Some? then u.next.value else None
    case Err(_) => None
  }

  /** A finished run from the first node has passed a successful retrieval. */
  lemma RetrieveStep(input: State, env: Collaborators)
    requires Run(input, env).Finished?
    ensures |input.messages| > 0
    ensures var q := env.retriever(input.messages[|input.messages| - 1].content);
      q.Ok? && Run(input, env) == Prepend(Retrieve, RunFrom(Router, AfterRetrieve(input, q.value), env))
  {
  }

  /** A finished run from the router has followed the branch of its label. */
  lemma RouterStep(s: State, env: Collaborators)
    requires RunFrom(Router, s, env).Finished?
    ensures Decision(s, env).Some? && Decision(s, env).value in BranchTable
    ensures var c := Decision(s, env).value;
      RunFrom(Router, s, env) == Prepend(Router, RunFrom(BranchTable[c], AfterRouter(s, c), env))
  {
  }

  /** `f` is `s` with k more message pairs, the last one the writer's when k > 0. */
  predicate Extends(s: State, f: State, k: nat) {
    && f.next == s.next
    && s.messages <= f.messages
    && |f.messages| == |s.messages| + 2 * k
    && (k > 0 ==> f.messages[|f.messages| - 1] == AIMessage(f.messages[|f.messages| - 1].content, "Writer"))
  }

  lemma WriterStep(s: State, env: Collaborators)
    requires RunFrom(Writer, s, env).Finished?
    ensures RunFrom(Writer, s, env).trace == [Writer]
    ensures Extends(s, RunFrom(Writer, s, env).final, 1)
  {
    var u := WriterNode(s, env.writer).value;
    assert RunFrom(Writer, s, env) == Prepend(Writer, RunFrom(End, Merge(s, u), env));
  }

  lemma SearchStep(s: State, env: Collaborators)
    requires RunFrom(Search, s, env).Finished?
    ensures RunFrom(Search, s, env).trace == [Search, Writer]
    ensures Extends(s, RunFrom(Search, s, env).final, 2)
  {
    var s' := Merge(s, SearchAgentNode(s, env.searchAgent, "Search").value);
    assert RunFrom(Search, s, env) == Prepend(Search, RunFrom(Writer, s', env));
    WriterStep(s', env);
  }

  /** What follows the router, by its label: nothing for FINISH, the
      writer for Writer, the search agent then the writer for Search. */
  lemma BranchRun(c: string, s: State, env: Collaborators)
    requires c in BranchTable && RunFrom(BranchTable[c], s, env).Finished?
    ensures var r := RunFrom(BranchTable[c], s, env);
      && (c == "FINISH" ==> r.trace == [] && r.final == s)
      && (c == "Writer" ==> r.trace == [Writer])
      && (c == "Search" ==> r.trace == [Search, Writer])
      && Extends(s, r.final, |r.trace|)
  {
    if c == "Search" {
      SearchStep(s, env);
    } else if c == "Writer" {
      WriterStep(s, env);
    }
  }

  /** The first two steps of a finished run: `rest` is what the router's
      branch did, from the doubled history whose last message is the
      retrieval reply. */
  lemma FirstSteps(input: State, env: Collaborators)
    requires Run(input, env).Finished?
    ensures |input.messages| > 0
    ensures var q := env.retriever(input.messages[|input.messages| - 1].content);
      q.Ok? &&
      var s1 := AfterRetrieve(input, q.value);
      var d := Decision(s1, env);
      d.Some? && d.value in BranchTable &&
      var s2 := AfterRouter(s1, d.value);
      && Run(input, env) == Prepend(Retrieve, Prepend(Router, RunFrom(BranchTable[d.value], s2, env)))
      && s2.next == d
      && input.messages <= s2.messages
      && |s2.messages| == 2 * (|input.messages| + 2)
      && s2.messages[|s2.messages| - 1] == AIMessage(RetrievalContent(q.value), "Retrieval")
  {
    RetrieveStep(input, env);
    var docs := env.retriever(input.messages[|input.messages| - 1].content).value;
    var s1 := AfterRetrieve(input, docs);
    RouterStep(s1, env);
    var s2 := AfterRouter(s1, Decision(s1, env).value);
    assert s1.messages[|s1.messages| - 1] == AIMessage(RetrievalContent(docs), "Retrieval");
    assert s2.messages[|s2.messages| - 1] == s1.messages[|s1.messages| - 1];
  }

  /** A finished run split at the router: `c` is the router's label and
      `rest` what its branch did, from the doubled history `mid`. */
  lemma FinishedSplit(input: State, env: Collaborators) returns (c: string, mid: State, rest: Outcome)
    requires Run(input, env).Finished?
    ensures c in BranchTable && rest.Finished?
    ensures Run(input, env).trace == [Retrieve, Router] + rest.trace
    ensures Run(input, env).final == rest.final
    ensures mid.next == Some(c)
    ensures input.messages <= mid.messages && |mid.messages| == 2 * (|input.messages| + 2)
    ensures mid.messages[|mid.messages| - 1] == AIMessage(mid.messages[|mid.messages| - 1].content, "Retrieval")
    ensures c == "FINISH" ==> rest.trace == [] && rest.final == mid
    ensures c == "Writer" ==> rest.trace == [Writer]
    ensures c == "Search" ==> rest.trace == [Search, Writer]
    ensures Extends(mid, rest.final, |rest.trace|)
  {
    FirstSteps(input, env);
    var docs := env.retriever(input.messages[|input.messages| - 1].content).value;
    var s1 := AfterRetrieve(input, docs);
    c := Decision(s1, env).value;
    mid := AfterRouter(s1, c);
    rest := RunFrom(BranchTable[c], mid, env);
    var r := Run(input, env);
    assert r == Prepend(Retrieve, Prepend(Router, rest));
    assert rest.Finished?;
    assert r.trace == [Retrieve] + ([Router] + rest.trace);
    ConsCons(Retrieve, Router, rest.trace);
    BranchRun(c, mid, env);
  }

  lemma ConsCons(a: Node, b: Node, t: seq<Node>)
    ensures [a] + ([b] + t) == [a, b] + t
  {
  }

  /** A finished run took one of three paths, fixed by the router's label:
      FINISH stops after the router, Writer runs the writer, Search runs the
      search agent and then the writer. So Router runs exactly once, and
      Writer runs exactly when Search or Writer was chosen. */
  lemma FinishedPaths(input: State, env: Collaborators)
    requires Run(input, env).Finished?
    ensures var t := Run(input, env).trace;
      var f := Run(input, env).final;
      && f.next.Some? && f.next.value in BranchTable
      && (f.next.value == "FINISH" ==> t == [Retrieve, Router])
      && (f.next.value == "Writer" ==> t == [Retrieve, Router, Writer])
      && (f.next.value == "Search" ==> t == [Retrieve, Router, Search, Writer])
      && (Writer in t <==> f.next.value in {"Search", "Writer"})
  {
    var c, mid, rest := FinishedSplit(input, env);
    var t := Run(input, env).trace;
    assert rest.final.next == Some(c);
    assert c == "FINISH" || c == "Writer" || c == "Search";
    if c == "FINISH" {
      assert t == [Retrieve, Router];
    } else if c == "Writer" {
      assert t == [Retrieve, Router, Writer];
    } else {
      assert t == [Retrieve, Router, Search, Writer];
    }
  }

  /** In a finished run the history grows by the retrieval pair, then
      doubles at the router, then grows by one pair per worker run; the input
      history stays its prefix, and the history ends with a Writer reply
      exactly when the router chose Search or Writer. */
  lemma FinishedHistory(input: State, env: Collaborators)
    requires Run(input, env).Finished?
    ensures var t := Run(input, env).trace;
      var f := Run(input, env).final;
      && |f.messages| == 2 * (|input.messages| + 2) + 2 * (|t| - 2)
      && input.messages <= f.messages
      && f.next.Some?
      && (f.messages[|f.messages| - 1] == AIMessage(f.messages[|f.messages| - 1].content, "Writer")
          <==> f.next.value in {"Search", "Writer"})
  {
    var c, mid, rest := FinishedSplit(input, env);
    HistoryAfterRouter(input.messages, c, mid, rest);
    var r := Run(input, env);
    assert r.final == rest.final;
    assert |r.trace| - 2 == |rest.trace|;
  }

  /** The history facts of a run split at the router, stated without the run. */
  lemma HistoryAfterRouter(input: seq<Message>, c: string, mid: State, rest: Outcome)
    requires c in BranchTable && rest.Finished? && mid.next == Some(c)
    requires input <= mid.messages && |mid.messages| == 2 * (|input| + 2)
    requires mid.messages[|mid.messages| - 1] == AIMessage(mid.messages[|mid.messages| - 1].content, "Retrieval")
    requires c == "FINISH" ==> rest.trace == [] && rest.final == mid
    requires c != "FINISH" ==> |rest.trace| > 0
    requires Extends(mid, rest.final, |rest.trace|)
    ensures var f := rest.final;
      && |f.messages| == 2 * (|input| + 2) + 2 * |rest.trace|
      && input <= f.messages
      && f.next == Some(c)
      && (f.messages[|f.messages| - 1] == AIMessage(f.messages[|f.messages| - 1].content, "Writer")
          <==> c in {"Search", "Writer"})
  {
    var f := rest.final;
    var n := |input|;
    assert input <= f.messages by {
      assert mid.messages[..n] == input;
      assert f.messages[..|mid.messages|] == mid.messages;
      assert f.messages[..n] == mid.messages[..n];
    }
    if c == "FINISH" {
      var last := f.messages[|f.messages| - 1];
      assert last.name == Some("Retrieval");
    }
  }

  /** The search agent's failure is not contained: a run in which the
      router picks Search and the agent raises crashes at Search. */
  lemma SearchFailurePropagates(input: State, env: Collaborators)
    requires |input.messages| > 0
    requires env.retriever(input.messages[|input.messages| - 1].content).Ok?
    requires var s1 := AfterRetrieve(input, env.retriever(input.messages[|input.messages| - 1].content).value);
      && Decision(s1, env) == Some("Search")
      && env.searchAgent(AfterRouter(s1, "Search")).Err?
    ensures Run(input, env).Crashed?
    ensures Run(input, env).trace == [Retrieve, Router, Search]
  {
    var s1 := AfterRetrieve(input, env.retriever(input.messages[|input.messages| - 1].content).value);
    assert Run(input, env) == Prepend(Retrieve, RunFrom(Router, s1, env));
    var s2 := AfterRouter(s1, "Search");
    assert RunFrom(Router, s1, env) == Prepend(Router, RunFrom(Search, s2, env));
  }
}

=== FILE: graph_nodes.dfy ===
/** The node bodies of the ManualAIze graph. Every call into a model, a
    retriever or an agent executor is a parameter; what the node does with
    the answer is modelled exactly. The `"\\n"` in the rendered texts is the
    two-character sequence backslash + `n`. */
module GraphNodes {
  import opened Base
  import opened GraphState

  const IndexError := "IndexError: list index out of range"
  const Finish := "FINISH"

  // ---------------------------------------------------------------------
  // Shared rendering
  // ---------------------------------------------------------------------

  /** One numbered block: `\n--- <kind> <i> ---\n<content>\n`. */
  function Block(kind: string, i: nat, content: string): string {
    Sep + "--- " + kind + " " + NatToString(i) + " ---" + Sep + content + Sep
  }

  /** The blocks for `contents`, numbered from `first` in order. */
  function Blocks(kind: string, contents: seq<string>, first: nat): string
    decreases |contents|
  {
    if |contents| == 0 then ""
    else Block(kind, first, contents[0]) + Blocks(kind, contents[1..], first + 1)
  }

  /** Appending one more item appends one more block, numbered after the
      others: the numbering follows the order of the items. */
  lemma {:induction false} BlocksSnoc(kind: string, contents: seq<string>, c: string, first: nat)
    ensures Blocks(kind, contents + [c], first)
         == Blocks(kind, contents, first) + Block(kind, first + |contents|, c)
    decreases |contents|
  {
    if |contents| == 0 {
      assert contents + [c] == [c];
    } else {
      assert (contents + [c])[1..] == contents[1..] + [c];
      BlocksSnoc(kind, contents[1..], c, first + 1);
    }
  }

  /** The two messages every worker node returns: a human marker naming
      the agent, then the agent's AI message tagged with its name. */
  predicate AgentReply(u: Update, agent: string, content: string) {
    u == Update(Some([HumanMessage(agent + " agent responding:"), AIMessage(content, agent)]), None)
  }

  function Reply(agent: string, content: string): (u: Update)
    ensures AgentReply(u, agent, content)
  {
    Update(Some([HumanMessage(agent + " agent responding:"), AIMessage(content, agent)]), None)
  }

  // ---------------------------------------------------------------------
  // Router options
  // ---------------------------------------------------------------------

  /** `create_router`'s label list: FINISH, then the members in order. */
  function RouterOptions(members: seq<string>): (opts: seq<string>)
    ensures |opts| == |members| + 1 && opts[0] == Finish && opts[1..] == members
  {
    [Finish] + members
  }

  // ---------------------------------------------------------------------
  // retrieve_node
  // ---------------------------------------------------------------------

  const RetrievalHeader := "Retrieved context from documents:" + Sep

  /** The retrieval message for the retrieved page contents. */
  function RetrievalContent(docs: seq<string>): string {
    RetrievalHeader + Blocks("Document", docs, 1)
  }

  /** `retrieve_node`: the retriever is asked with the last message's
      content; an empty history or a retriever failure raises. */
  function RetrieveNode(s: State, retriever: string -> Result<seq<string>>): (r: Result<Update>)
    ensures |s.messages| == 0 ==> r == Err(IndexError)
    ensures |s.messages| > 0 ==> var q := retriever(s.messages[|s.messages| - 1].content);
      (q.Err? ==> r == Err(q.error)) &&
      (q.Ok? ==> r.Ok? && AgentReply(r.value, "Retrieval", RetrievalContent(q.value)))
  {
    if |s.messages| == 0 then Err(IndexError)
    else
      match retriever(s.messages[|s.messages| - 1].content)
      case Err(e) => Err(e)
      case Ok(docs) => Ok(Reply("Retrieval", RetrievalContent(docs)))
  }

  /** Only the last message matters to the retrieval step. */
  lemma RetrieveUsesLastMessage(s1: State, s2: State, retriever: string -> Result<seq<string>>)
    requires |s1.messages| > 0 && |s2.messages| > 0
    requires s1.messages[|s1.messages| - 1].content == s2.messages[|s2.messages| - 1].content
    ensures RetrieveNode(s1, retriever) == RetrieveNode(s2, retriever)
  {
  }

  /** No documents gives the header alone; one more document appends one
      more block numbered `|docs| + 1`. */
  lemma RetrievalContentShape(docs: seq<string>, d: string)
    ensures RetrievalContent([]) == "Retrieved context from documents:\\n"
    ensures RetrievalContent(docs + [d])
         == RetrievalContent(docs) + Block("Document", |docs| + 1, d)
  {
    BlocksSnoc("Document", docs, d, 1);
  }

  // ---------------------------------------------------------------------
  // search_agent_node
  // ---------------------------------------------------------------------

  /** The value under the `output` key of the executor's result. */
  datatype OutputValue =
    | OutText(text: string)              // a string
    | OutDocs(pageContents: seq<string>) // an iterable whose items all have `page_content`
    | OutOther(text: string)             // anything else, by the text it shows

  /** What the agent executor returned: a dictionary (with or without an
      `output` key; `repr` is `str(result)`) or some other object. */
  datatype AgentResult =
    | DictResult(output: Option<OutputValue>, repr: string)
    | OtherResult(repr: string)

  const SearchHeader := "Internet search results:" + Sep

  /** The text of the search message. A string is iterable and its items
      (characters) have no `page_content`, so only the empty string passes
      the `all(...)` test. */
  function SearchMessage(result: AgentResult): string {
    match result
    case OtherResult(repr) => repr
    case DictResult(None, repr) => repr
    case DictResult(Some(OutDocs(cs)), _) => SearchHeader + Blocks("Result", cs, 1)
    case DictResult(Some(OutText(t)), _) => if t == "" then SearchHeader else t
    case DictResult(Some(OutOther(t)), _) => t
  }

  /** A list of documents gives the header and one block per document,
      numbered in order; none for the empty list, as `all` of nothing holds. */
  lemma SearchDocsShape(cs: seq<string>, c: string, repr: string)
    ensures SearchMessage(DictResult(Some(OutDocs([])), repr)) == "Internet search results:\\n"
    ensures SearchMessage(DictResult(Some(OutDocs(cs + [c])), repr))
         == SearchMessage(DictResult(Some(OutDocs(cs)), repr)) + Block("Result", |cs| + 1, c)
  {
    BlocksSnoc("Result", cs, c, 1);
    assert SearchHeader + (Blocks("Result", cs, 1) + Block("Result", |cs| + 1, c))
        == SearchHeader + Blocks("Result", cs, 1) + Block("Result", |cs| + 1, c);
  }

  /** The other results: a non-empty string passes through and the empty
      string gives the header; any other `output` gives its text; a
      dictionary without `output`, or a result that is no dictionary, gives
      its own text. */
  lemma SearchOtherShape(t: string, repr: string)
    ensures t != "" ==> SearchMessage(DictResult(Some(OutText(t)), repr)) == t
    ensures SearchMessage(DictResult(Some(OutText("")), repr)) == SearchHeader
    ensures SearchMessage(DictResult(Some(OutOther(t)), repr)) == t
    ensures SearchMessage(DictResult(None, repr)) == repr
    ensures SearchMessage(OtherResult(repr)) == repr
  {
  }

  /** `search_agent_node`: the agent is invoked with the whole state and
      any exception it raises propagates. */
  function SearchAgentNode(s: State, agent: State -> Result<AgentResult>, name: string): (r: Result<Update>)
    ensures agent(s).Err? ==> r == Err(agent(s).error)
    ensures agent(s).Ok? ==> r.Ok? && AgentReply(r.value, name, SearchMessage(agent(s).value))
  {
    match agent(s)
    case Err(e) => Err(e)
    case Ok(result) => Ok(Reply(name, SearchMessage(result)))
  }

  // ---------------------------------------------------------------------
  // writer_node
  // ---------------------------------------------------------------------

  /** An AI message from the retrieval or the search agent. */
  predicate IsSourceMessage(m: Message) {
    m.role == AI && m.name.Some? && m.name.value in ["Retrieval", "Search"]
  }

  /** What one message adds to the writer's context. */
  function SourceText(m: Message): string {
    if IsSourceMessage(m) then Sep + m.content + Sep else ""
  }

  /** What each message adds, in history order. */
  function SourceTexts(msgs: seq<Message>): (r: seq<string>)
    ensures |r| == |msgs| && forall i :: 0 <= i < |msgs| ==> r[i] == SourceText(msgs[i])
  {
    seq(|msgs|, i requires 0 <= i < |msgs| => SourceText(msgs[i]))
  }

  /** The writer's context: each source message's content between two
      separators, in history order. */
  function WriterContext(msgs: seq<Message>): string
    decreases |msgs|
  {
    if |msgs| == 0 then "" else SourceText(msgs[0]) + WriterContext(msgs[1..])
  }

  /** The context is the flattening of what each message adds. */
  lemma {:induction false} WriterContextFlat(msgs: seq<Message>)
    ensures WriterContext(msgs) == Flatten(SourceTexts(msgs))
    decreases |msgs|
  {
    if |msgs| > 0 {
      assert SourceTexts(msgs)[1..] == SourceTexts(msgs[1..]);
      WriterContextFlat(msgs[1..]);
    }
  }

  lemma WriterContextAppend(a: seq<Message>, b: seq<Message>)
    ensures WriterContext(a + b) == WriterContext(a) + WriterContext(b)
  {
    WriterContextFlat(a);
    WriterContextFlat(b);
    WriterContextFlat(a + b);
    SourceTextsAppend(a, b);
    FlattenAppend(SourceTexts(a), SourceTexts(b));
  }

  lemma SourceTextsAppend(a: seq<Message>, b: seq<Message>)
    ensures SourceTexts(a + b) == SourceTexts(a) + SourceTexts(b)
  {
  }

  /** The context grows by one message at a time: a source message adds its
      content between separators, every other message adds nothing. */
  lemma WriterContextSnoc(msgs: seq<Message>, m: Message)
    ensures IsSourceMessage(m) ==> WriterContext(msgs + [m]) == WriterContext(msgs) + Sep + m.content + Sep
    ensures !IsSourceMessage(m) ==> WriterContext(msgs + [m]) == WriterContext(msgs)
  {
    WriterContextAppend(msgs, [m]);
    assert WriterContext([m]) == SourceText(m) + WriterContext([]);
  }

  /** `writer_node`: the question is message 0, the context is built from
      the source messages, and the model's failure propagates. */
  function WriterNode(s: State, writer: (string, string) -> Result<string>): (r: Result<Update>)
    ensures |s.messages| == 0 ==> r == Err(IndexError)
    ensures |s.messages| > 0 ==> var w := writer(s.messages[0].content, WriterContext(s.messages));
      (w.Err? ==> r == Err(w.error)) &&
      (w.Ok? ==> r.Ok? && AgentReply(r.value, "Writer", w.value))
  {
    if |s.messages| == 0 then Err(IndexError)
    else
      match writer(s.messages[0].content, WriterContext(s.messages))
      case Err(e) => Err(e)
      case Ok(text) => Ok(Reply("Writer", text))
  }

  // ---------------------------------------------------------------------
  // router_node
  // ---------------------------------------------------------------------

  /** One parsed tool call: the tool's name and its arguments. */
  datatype ToolCall = ToolCall(name: string, args: map<string, string>)

  /** `router_node`: the update repeats the whole state (`{**state, ...}`)
      and sets `next` to the first call's `next` argument, or to FINISH when
      the model made no call. A first call without `next` raises KeyError. */
  function RouterNode(s: State, route: seq<Message> -> Result<seq<ToolCall>>): (r: Result<Update>)
    ensures route(s.messages).Err? ==> r == Err(route(s.messages).error)
    ensures route(s.messages) == Ok([]) ==> r == Ok(Update(Some(s.messages), Some(Some(Finish))))
    ensures route(s.messages).Ok? && |route(s.messages).value| > 0 ==>
      var first := route(s.messages).value[0];
      ("next" in first.args ==> r == Ok(Update(Some(s.messages), Some(Some(first.args["next"]))))) &&
      ("next" !in first.args ==> r == Err("KeyError: 'next'"))
  {
    match route(s.messages)
    case Err(e) => Err(e)
    case Ok(calls) =>
      if |calls| == 0 then Ok(Update(Some(s.messages), Some(Some(Finish))))
      else if "next" in calls[0].args then Ok(Update(Some(s.messages), Some(Some(calls[0].args["next"]))))
      else Err("KeyError: 'next'")
  }

  /** Under the `operator.add` reducer the router's update doubles the
      history, and `next` becomes the kind it chose. */
  lemma RouterDoublesHistory(s: State, route: seq<Message> -> Result<seq<ToolCall>>)
    requires RouterNode(s, route).Ok?
    ensures Merge(s, RouterNode(s, route).value).messages == s.messages + s.messages
    ensures Merge(s, RouterNode(s, route).value).next.Some?
  {
  }

  /** Only the first tool call decides; later calls are ignored. */
  lemma RouterIgnoresLaterCalls(s: State, first: ToolCall, rest: seq<ToolCall>, rest': seq<ToolCall>,
                                route: seq<Message> -> Result<seq<ToolCall>>,
                                route': seq<Message> -> Result<seq<ToolCall>>)
    requires route(s.messages) == Ok([first] + rest) && route'(s.messages) == Ok([first] + rest')
    ensures RouterNode(s, route) == RouterNode(s, route')
  {
  }
}

=== FILE: graph_state.dfy ===
/** The state threaded through the ManualAIze graph: a message history
    merged by list concatenation and a single routing label that is
    overwritten, never accumulated. */
module GraphState {
  import opened Base

  datatype Role = Human | AI

  /** A chat message; `name` tags AI messages with the agent that wrote them. */
  datatype Message = Message(role: Role, content: string, name: Option<string>)

  function HumanMessage(content: string): Message {
    Message(Human, content, None)
  }

  function AIMessage(content: string, name: string): Message {
    Message(AI, content, Some(name))
  }

  /** `AgentState`: `messages` carries the `operator.add` reducer, `next`
      has none. */
  datatype State = State(messages: seq<Message>, next: Option<string>)

  /** What a node returns: the keys it sets. An absent key leaves the
      state's field alone. */
  datatype Update = Update(messages: Option<seq<Message>>, next: Option<Option<string>>)

  /** The messages an update contributes (none when it does not set the key). */
  function Appended(u: Update): seq<Message> {
    if u.messages.Some? then u.messages.value else []
  }

  /** Applying a node's update: the history gets the update's messages
      appended after it, and `next` is replaced when the update sets it. */
  function Merge(s: State, u: Update): (r: State)
    ensures s.messages <= r.messages
    ensures |r.messages| == |s.messages| + |Appended(u)|
    ensures r.messages[|s.messages|..] == Appended(u)
    ensures u.next.Some? ==> r.next == u.next.value
    ensures u.next.None? ==> r.next == s.next
  {
    State(s.messages + Appended(u), if u.next.Some? then u.next.value else s.next)
  }

  /** Two updates in a row, as one: messages concatenated, the later label wins. */
  function Then(u1: Update, u2: Update): Update {
    Update(Some(Appended(u1) + Appended(u2)), if u2.next.Some? then u2.next else u1.next)
  }

  /** Merging two updates in succession equals merging their combination. */
  lemma MergeThen(s: State, u1: Update, u2: Update)
    ensures Merge(Merge(s, u1), u2) == Merge(s, Then(u1, u2))
  {
    assert s.messages + Appended(u1) + Appended(u2) == s.messages + (Appended(u1) + Appended(u2));
  }
}

=== FILE: graph_tools.dfy ===
/** The `search_internet` tool: each search-engine hit becomes a document
    whose text lists title, content and URL, separated by the two-character
    sequence backslash + `n` that the source writes as `"\\n"`. */
module GraphTools {
  import opened Base

  /** A search hit: a dictionary of string fields. */
  type SearchHit = map<string, string>

  datatype Document = Document(pageContent: string, metadata: map<string, string>)

  /** `hit.get(key, '')`. */
  function Field(hit: SearchHit, key: string): string {
    if key in hit then hit[key] else ""
  }

  const SourceTag := "internet_search"

  /** One hit as a document: the text is the title line, the content line
      and the URL line, the metadata says where it came from and repeats
      the URL shown in the text. */
  function HitToDocument(hit: SearchHit): (d: Document)
    ensures "Title: " + Field(hit, "title") + Sep <= d.pageContent
    ensures d.metadata.Keys == {"source", "url"}
    ensures d.metadata["source"] == SourceTag
    ensures d.metadata["url"] == Field(hit, "url")
    ensures var tail := Sep + "URL: " + d.metadata["url"];
      |tail| <= |d.pageContent| && d.pageContent[|d.pageContent| - |tail|..] == tail
    ensures var head := "Title: " + Field(hit, "title") + Sep;
      var tail := Sep + "URL: " + Field(hit, "url");
      && |head| + |tail| <= |d.pageContent|
      && d.pageContent[|head|..|d.pageContent| - |tail|] == "Content: " + Field(hit, "content")
  {
    var title := "Title: " + Field(hit, "title");
    var content := "Content: " + Field(hit, "content");
    var url := "URL: " + Field(hit, "url");
    var text := title + Sep + content + Sep + url;
    assert text == (title + Sep) + (content + Sep + url);
    assert text == (title + Sep + content) + (Sep + url);
    assert text == (title + Sep) + content + (Sep + url);
    assert text[|title + Sep|..|text| - |Sep + url|] == content;
    Document(text, map["source" := SourceTag, "url" := Field(hit, "url")])
  }

  /** The conversion loop of `search_internet`: one document per hit, in
      hit order. */
  method HitsToDocuments(hits: seq<SearchHit>) returns (docs: seq<Document>)
    ensures |docs| == |hits|
    ensures forall i :: 0 <= i < |hits| ==> docs[i] == HitToDocument(hits[i])
  {
    docs := [];
    for i := 0 to |hits|
      invariant |docs| == i
      invariant forall j :: 0 <= j < i ==> docs[j] == HitToDocument(hits[j])
    {
      docs := docs + [HitToDocument(hits[i])];
    }
  }

  /** `search_internet`: the search engine's failure propagates. */
  method SearchInternetTool(query: string, engine: string -> Result<seq<SearchHit>>)
    returns (r: Result<seq<Document>>)
    ensures engine(query).Err? ==> r == Err(engine(query).error)
    ensures engine(query).Ok? ==> r.Ok? && |r.value| == |engine(query).value|
    ensures engine(query).Ok? ==> forall i :: 0 <= i < |r.value| ==>
      r.value[i] == HitToDocument(engine(query).value[i])
  {
    var hits := engine(query);
    if hits.Err? {
      return Err(hits.error);
    }
    var docs := HitsToDocuments(hits.value);
    return Ok(docs);
  }

  /** A hit with none of the keys renders every field as the empty string. */
  lemma EmptyHit()
    ensures HitToDocument(map[]).pageContent == "Title: " + Sep + "Content: " + Sep + "URL: "
    ensures HitToDocument(map[]).metadata["url"] == ""
  {
  }
}

=== FILE: password.dfy ===
/** The MCP server's `generate_password` tool. The random choices are an
    input: one index per character, each reduced modulo the size of the
    character set, which is how a uniform pick is read here. */
module Password {
  import opened Base

  /** The `n` consecutive characters from code point `first` on. */
  function CharRange(first: nat, n: nat): (r: string)
    requires first + n <= 0xD800
    ensures |r| == n
    ensures forall c :: c in r <==> first <= c as int < first + n
  {
    if n == 0 then [] else CharRange(first, n - 1) + [(first + n - 1) as char]
  }

  predicate IsAsciiLetter(c: char) { 'a' <= c <= 'z' || 'A' <= c <= 'Z' }

  /** `string.ascii_letters`: the lower-case letters, then the upper-case ones. */
  function AsciiLetters(): (r: string)
    ensures |r| == 52
    ensures forall c :: c in r <==> IsAsciiLetter(c)
  {
    CharRange('a' as int, 26) + CharRange('A' as int, 26)
  }

  /** `string.digits`. */
  function Digits(): (r: string)
    ensures |r| == 10
    ensures forall c :: c in r <==> IsDigit(c)
  {
    CharRange('0' as int, 10)
  }

  const Symbols := "!@#$%^&*()_+-=[]{}|;:,.<>?"

  lemma SymbolsAreNeither()
    ensures forall i :: 0 <= i < |Symbols| ==> !IsAsciiLetter(Symbols[i]) && !IsDigit(Symbols[i])
  {
  }

  const DefaultLength := 12
  const DefaultIncludeSymbols := true
  const DefaultIncludeNumbers := true
  const Prefix := "Generated password: "

  /** The character set: letters always, then digits and symbols as asked. */
  function Characters(includeSymbols: bool, includeNumbers: bool): (cs: string)
    ensures AsciiLetters() <= cs
    ensures forall c :: c in cs <==>
      IsAsciiLetter(c) || (includeNumbers && IsDigit(c)) || (includeSymbols && c in Symbols)
  {
    AsciiLetters() + (if includeNumbers then Digits() else "") + (if includeSymbols then Symbols else "")
  }

  /** Digits are offered exactly when numbers are asked for, and symbols
      exactly when symbols are. */
  lemma CharactersByFlags(includeSymbols: bool, includeNumbers: bool)
    ensures var cs := Characters(includeSymbols, includeNumbers);
      && (forall c :: IsDigit(c) ==> (c in cs <==> includeNumbers))
      && (forall c :: c in Symbols ==> (c in cs <==> includeSymbols))
  {
    SymbolsAreNeither();
    var cs := Characters(includeSymbols, includeNumbers);
    forall c | c in Symbols
      ensures c in cs <==> includeSymbols
    {
      var i :| 0 <= i < |Symbols| && Symbols[i] == c;
    }
  }

  /** The password drawn with the given picks: `length` characters, none
      when `length` is not positive. */
  function Draw(characters: string, length: int, picks: seq<nat>): (p: string)
    requires |characters| > 0 && |picks| >= length
    ensures |p| == (if length <= 0 then 0 else length)
    ensures forall i :: 0 <= i < |p| ==> p[i] == characters[picks[i] % |characters|]
  {
    if length <= 0 then ""
    else seq(length, i requires 0 <= i < length => characters[picks[i] % |characters|])
  }

  /** `generate_password`, with its default arguments. */
  function GeneratePassword(picks: seq<nat>, length: int := DefaultLength,
                            includeSymbols: bool := DefaultIncludeSymbols,
                            includeNumbers: bool := DefaultIncludeNumbers): (r: string)
    requires |picks| >= length
    ensures Prefix <= r
    ensures |r| == |Prefix| + (if length <= 0 then 0 else length)
  {
    Prefix + Draw(Characters(includeSymbols, includeNumbers), length, picks)
  }

  /** The text after the prefix is a password of the asked length whose
      every character comes from the character set the flags select. */
  lemma GeneratedPasswordShape(picks: seq<nat>, length: int, includeSymbols: bool, includeNumbers: bool)
    requires |picks| >= length
    ensures var r := GeneratePassword(picks, length, includeSymbols, includeNumbers);
      var p := r[|Prefix|..];
      && |p| == (if length <= 0 then 0 else length)
      && forall i :: 0 <= i < |p| ==>
           IsAsciiLetter(p[i]) || (includeNumbers && IsDigit(p[i])) || (includeSymbols && p[i] in Symbols)
  {
    var cs := Characters(includeSymbols, includeNumbers);
    var p := Draw(cs, length, picks);
    assert GeneratePassword(picks, length, includeSymbols, includeNumbers)[|Prefix|..] == p;
    forall i | 0 <= i < |p|
      ensures p[i] in cs
    {
      assert p[i] == cs[picks[i] % |cs|];
    }
  }

  /** Called with the defaults, the password has twelve characters, each a
      letter, a digit or a symbol. */
  lemma DefaultPassword(picks: seq<nat>)
    requires |picks| >= 12
    ensures var r := GeneratePassword(picks);
      && |r| == |Prefix| + 12
      && forall i :: |Prefix| <= i < |r| ==>
           IsAsciiLetter(r[i]) || IsDigit(r[i]) || r[i] in Symbols
  {
    var r := GeneratePassword(picks);
    GeneratedPasswordShape(picks, 12, true, true);
    forall i | |Prefix| <= i < |r|
      ensures IsAsciiLetter(r[i]) || IsDigit(r[i]) || r[i] in Symbols
    {
      assert r[i] == r[|Prefix|..][i - |Prefix|];
    }
  }
}

=== FILE: resilience.dfy ===
/** The production helpers of the agent architecture analysis: a memoizing
    wrapper, a sliding-window rate limiter and a circuit breaker. The clock
    and the wrapped call are inputs: each step receives the time it would
    read and the outcome the call would have (`Ok(v)`, or `Err(e)` for an
    exception). */
module Resilience {
  import opened Base

  // ---------------------------------------------------------------------
  // simple_cache
  // ---------------------------------------------------------------------

  /** One call of the wrapper: the result, the cache afterwards, and whether
      the wrapped function was called. */
  datatype CacheStep<V> = CacheStep(cache: map<string, V>, result: Result<V>, called: bool)

  /** The wrapper: a stored value is returned without calling; otherwise the
      function is called and its value stored, while an exception leaves the
      cache as it was and propagates. */
  function CacheCall<V>(cache: map<string, V>, key: string, outcome: Result<V>): (r: CacheStep<V>)
    ensures r.called <==> key !in cache
    ensures key in cache ==> r.result == Ok(cache[key]) && r.cache == cache
    ensures key !in cache ==> r.result == outcome
    ensures key !in cache && outcome.Ok? ==> key in r.cache && r.cache[key] == outcome.value
    ensures r.cache.Keys == (if key !in cache && outcome.Ok? then cache.Keys + {key} else cache.Keys)
    ensures forall k :: k in cache ==> k in r.cache && r.cache[k] == cache[k]
  {
    if key in cache then CacheStep(cache, Ok(cache[key]), false)
    else match outcome
      case Ok(v) => CacheStep(cache[key := v], Ok(v), true)
      case Err(e) => CacheStep(cache, Err(e), true)
  }

  /** Every stored value is what the (deterministic) function returns. */
  ghost predicate Consistent<V>(cache: map<string, V>, f: string -> Result<V>) {
    forall k :: k in cache ==> f(k) == Ok(cache[k])
  }

  /** A run of lookups: the results and the keys for which the function was
      actually called, in order. */
  function CacheRun<V>(cache: map<string, V>, keys: seq<string>, f: string -> Result<V>)
    : (r: (map<string, V>, seq<Result<V>>, seq<string>))
    ensures |r.1| == |keys|
    decreases |keys|
  {
    if |keys| == 0 then (cache, [], [])
    else
      var step := CacheCall(cache, keys[0], f(keys[0]));
      var rest := CacheRun(step.cache, keys[1..], f);
      (rest.0, [step.result] + rest.1, (if step.called then [keys[0]] else []) + rest.2)
  }

  function Count(s: seq<string>, k: string): nat
    decreases |s|
  {
    if |s| == 0 then 0 else (if s[0] == k then 1 else 0) + Count(s[1..], k)
  }

  /** Memoization is transparent: from a consistent cache every lookup
      returns what the function itself would. */
  lemma {:induction false} CacheTransparent<V>(cache: map<string, V>, keys: seq<string>, f: string -> Result<V>)
    requires Consistent(cache, f)
    ensures var r := CacheRun(cache, keys, f);
      Consistent(r.0, f) && forall i :: 0 <= i < |keys| ==> r.1[i] == f(keys[i])
    decreases |keys|
  {
    if |keys| > 0 {
      var step := CacheCall(cache, keys[0], f(keys[0]));
      assert Consistent(step.cache, f);
      CacheTransparent(step.cache, keys[1..], f);
      var r := CacheRun(cache, keys, f);
      forall i | 0 <= i < |keys|
        ensures r.1[i] == f(keys[i])
      {
        if i > 0 {
          assert r.1[i] == CacheRun(step.cache, keys[1..], f).1[i - 1];
        }
      }
    }
  }

  /** The function is called at most once per key whose call succeeds, and
      not at all for a key already stored; a failing key is retried on every
      lookup. */
  lemma {:induction false} CacheCallsOnce<V>(cache: map<string, V>, keys: seq<string>, f: string -> Result<V>, k: string)
    requires f(k).Ok?
    ensures Count(CacheRun(cache, keys, f).2, k) <= (if k in cache then 0 else 1)
    decreases |keys|
  {
    if |keys| > 0 {
      var step := CacheCall(cache, keys[0], f(keys[0]));
      CacheCallsOnce(step.cache, keys[1..], f, k);
      var called := if step.called then [keys[0]] else [];
      var rest := CacheRun(step.cache, keys[1..], f).2;
      CountAppend(called, rest, k);
    }
  }

  lemma CacheRetriesFailures<V>(cache: map<string, V>, keys: seq<string>, f: string -> Result<V>, k: string)
    requires f(k).Err? && k !in cache
    ensures Count(CacheRun(cache, keys, f).2, k) == Count(keys, k)
  {
    CacheRetriesFrom(cache, keys, f, k);
  }

  lemma {:induction false} CacheRetriesFrom<V>(cache: map<string, V>, keys: seq<string>, f: string -> Result<V>, k: string)
    requires f(k).Err? && k !in cache
    ensures Count(CacheRun(cache, keys, f).2, k) == Count(keys, k)
    decreases |keys|
  {
    if |keys| > 0 {
      var step := CacheCall(cache, keys[0], f(keys[0]));
      assert k !in step.cache;
      CacheRetriesFrom(step.cache, keys[1..], f, k);
      var called := if step.called then [keys[0]] else [];
      CountAppend(called, CacheRun(step.cache, keys[1..], f).2, k);
    }
  }

  lemma {:induction false} CountAppend(a: seq<string>, b: seq<string>, k: string)
    ensures Count(a + b, k) == Count(a, k) + Count(b, k)
    decreases |a|
  {
    if |a| == 0 {
      assert a + b == b;
    } else {
      assert (a + b)[1..] == a[1..] + b;
      CountAppend(a[1..], b, k);
    }
  }

  // ---------------------------------------------------------------------
  // RateLimiter
  // ---------------------------------------------------------------------

  datatype RateLimiter = RateLimiter(maxRequests: int, timeWindow: int, requests: seq<int>)

  function NewRateLimiter(maxRequests: int, timeWindow: int): RateLimiter {
    RateLimiter(maxRequests, timeWindow, [])
  }

  /** The timestamps still inside the window at `now`, in their order. */
  function Prune(requests: seq<int>, now: int, window: int): (r: seq<int>)
    ensures |r| <= |requests|
    ensures forall t :: t in r <==> t in requests && now - t < window
    ensures forall t :: multiset(r)[t] == if now - t < window then multiset(requests)[t] else 0
    decreases |requests|
  {
    if |requests| == 0 then []
    else
      assert requests == [requests[0]] + requests[1..];
      (if now - requests[0] < window then [requests[0]] else []) + Prune(requests[1..], now, window)
  }

  /** `allow_request` at time `now`: the new limiter and the decision. */
  function AllowRequest(rl: RateLimiter, now: int): (r: (RateLimiter, bool))
    ensures r.0.maxRequests == rl.maxRequests && r.0.timeWindow == rl.timeWindow
    ensures var kept := Prune(rl.requests, now, rl.timeWindow);
      (r.1 <==> |kept| < rl.maxRequests) &&
      (r.1 ==> r.0.requests == kept + [now]) &&
      (!r.1 ==> r.0.requests == kept)
  {
    var kept := Prune(rl.requests, now, rl.timeWindow);
    if |kept| < rl.maxRequests then (rl.(requests := kept + [now]), true)
    else (rl.(requests := kept), false)
  }

  /** The limiter never retains more timestamps than it allows requests. */
  ghost predicate WithinLimit(rl: RateLimiter) {
    |rl.requests| <= Max(rl.maxRequests, 0)
  }

  function Max(a: int, b: int): int { if a >= b then a else b }

  lemma AllowRequestKeepsLimit(rl: RateLimiter, now: int)
    requires WithinLimit(rl)
    ensures WithinLimit(AllowRequest(rl, now).0)
  {
  }

  /** The limiter stepped at the given times: the final limiter and the
      decisions. */
  function RunLimiter(rl: RateLimiter, times: seq<int>): (r: (RateLimiter, seq<bool>))
    ensures |r.1| == |times|
    ensures r.0.maxRequests == rl.maxRequests && r.0.timeWindow == rl.timeWindow
    decreases |times|
  {
    if |times| == 0 then (rl, [])
    else
      var step := AllowRequest(rl, times[0]);
      var rest := RunLimiter(step.0, times[1..]);
      (rest.0, [step.1] + rest.1)
  }

  /** Starting from an empty list, at no point are more than `max_requests`
      timestamps retained, whatever the times. */
  lemma {:induction false} RunLimiterBounded(rl: RateLimiter, times: seq<int>)
    requires WithinLimit(rl)
    ensures WithinLimit(RunLimiter(rl, times).0)
    decreases |times|
  {
    if |times| > 0 {
      AllowRequestKeepsLimit(rl, times[0]);
      RunLimiterBounded(AllowRequest(rl, times[0]).0, times[1..]);
    }
  }

  lemma FreshLimiterBounded(maxRequests: int, timeWindow: int, times: seq<int>)
    ensures |RunLimiter(NewRateLimiter(maxRequests, timeWindow), times).0.requests| <= Max(maxRequests, 0)
  {
    var rl := NewRateLimiter(maxRequests, timeWindow);
    RunLimiterBounded(rl, times);
  }

  /** Within one window, with time not going backwards, the limiter allows
      at most `max_requests` of the requests it sees. */
  lemma {:induction false} BurstAllowsAtMostMax(rl: RateLimiter, times: seq<int>)
    requires rl.requests == [] && rl.maxRequests >= 0
    requires forall i, j :: 0 <= i < j < |times| ==> times[i] <= times[j]
    requires forall i, j :: 0 <= i < j < |times| ==> times[j] - times[i] < rl.timeWindow
    ensures CountTrue(RunLimiter(rl, times).1) <= rl.maxRequests
  {
    BurstFrom(rl, times);
  }

  function CountTrue(s: seq<bool>): nat
    decreases |s|
  {
    if |s| == 0 then 0 else (if s[0] then 1 else 0) + CountTrue(s[1..])
  }

  /** Generalization: the retained timestamps all lie before the burst and
      inside the window of every time in it, so each one still counts. */
  lemma {:induction false} BurstFrom(rl: RateLimiter, times: seq<int>)
    requires 0 <= |rl.requests| <= rl.maxRequests
    requires forall i, j :: 0 <= i < j < |times| ==> times[i] <= times[j]
    requires forall i, j :: 0 <= i < j < |times| ==> times[j] - times[i] < rl.timeWindow
    requires forall t, i :: t in rl.requests && 0 <= i < |times| ==> t <= times[i] && times[i] - t < rl.timeWindow
    ensures CountTrue(RunLimiter(rl, times).1) + |rl.requests| <= rl.maxRequests
    decreases |times|
  {
    if |times| > 0 {
      var now := times[0];
      PruneKeepsAll(rl.requests, now, rl.timeWindow);
      var step := AllowRequest(rl, now);
      var rest := times[1..];
      forall t, i | t in step.0.requests && 0 <= i < |rest|
        ensures t <= rest[i] && rest[i] - t < rl.timeWindow
      {
        assert rest[i] == times[i + 1];
        if t !in rl.requests {
          assert t == now;
        }
      }
      BurstFrom(step.0, rest);
    }
  }

  lemma {:induction false} PruneKeepsAll(requests: seq<int>, now: int, window: int)
    requires forall t :: t in requests ==> now - t < window
    ensures Prune(requests, now, window) == requests
    decreases |requests|
  {
    if |requests| > 0 {
      assert requests[0] in requests;
      forall t | t in requests[1..]
        ensures now - t < window
      {
        assert t in requests;
      }
      PruneKeepsAll(requests[1..], now, window);
      assert requests == [requests[0]] + requests[1..];
    }
  }

  // ---------------------------------------------------------------------
  // CircuitBreaker
  // ---------------------------------------------------------------------

  datatype BreakerState = Closed | Open | HalfOpen

  datatype CircuitBreaker = CircuitBreaker(
    failureThreshold: int, recoveryTimeout: int,
    failureCount: int, lastFailureTime: int, state: BreakerState)

  const DefaultFailureThreshold := 5
  const DefaultRecoveryTimeout := 60
  const OpenError := "Circuit breaker is OPEN"

  function NewCircuitBreaker(failureThreshold: int := DefaultFailureThreshold, recoveryTimeout: int := DefaultRecoveryTimeout): (cb: CircuitBreaker)
    ensures cb.state == Closed && cb.failureCount == 0 && cb.lastFailureTime == 0
    ensures cb.failureThreshold == failureThreshold && cb.recoveryTimeout == recoveryTimeout
  {
    CircuitBreaker(failureThreshold, recoveryTimeout, 0, 0, Closed)
  }

  /** One `call`: the breaker afterwards, what the caller sees, and whether
      the wrapped function was called. */
  datatype BreakerStep<V> = BreakerStep(breaker: CircuitBreaker, result: Result<V>, called: bool)

  /** `call` at time `start`, where the wrapped function would give
      `outcome` and a failure would be recorded at `failTime`. */
  function BreakerCall<V>(cb: CircuitBreaker, start: int, outcome: Result<V>, failTime: int): (r: BreakerStep<V>)
    ensures r.breaker.failureThreshold == cb.failureThreshold && r.breaker.recoveryTimeout == cb.recoveryTimeout
    ensures cb.state == Open && start - cb.lastFailureTime <= cb.recoveryTimeout ==>
      r == BreakerStep(cb, Err(OpenError), false)
    ensures r.called <==> !(cb.state == Open && start - cb.lastFailureTime <= cb.recoveryTimeout)
    ensures r.called ==> r.result == outcome
    ensures r.called && outcome.Ok? && cb.state != Closed ==>
      r.breaker.state == Closed && r.breaker.failureCount == 0
    ensures r.called && outcome.Ok? ==> r.breaker.lastFailureTime == cb.lastFailureTime
    ensures r.called && outcome.Ok? && cb.state == Closed ==> r.breaker == cb
    ensures r.called && outcome.Err? ==>
      r.breaker.failureCount == cb.failureCount + 1 && r.breaker.lastFailureTime == failTime &&
      (r.breaker.failureCount >= cb.failureThreshold ==> r.breaker.state == Open)
    ensures r.called && outcome.Err? && r.breaker.failureCount < cb.failureThreshold ==>
      r.breaker.state == (if cb.state == Open then HalfOpen else cb.state)
  {
    if cb.state == Open && start - cb.lastFailureTime <= cb.recoveryTimeout then
      BreakerStep(cb, Err(OpenError), false)
    else
      var b := if cb.state == Open then cb.(state := HalfOpen) else cb;
      match outcome
      case Ok(v) =>
        BreakerStep(if b.state == HalfOpen then b.(state := Closed, failureCount := 0) else b, Ok(v), true)
      case Err(e) =>
        var n := b.failureCount + 1;
        BreakerStep(b.(failureCount := n, lastFailureTime := failTime,
                       state := if n >= b.failureThreshold then Open else b.state), Err(e), true)
  }

  /** Between calls the breaker is never half-open, and an open breaker has
      reached its failure threshold. */
  ghost predicate BreakerValid(cb: CircuitBreaker) {
    cb.state != HalfOpen && (cb.state == Open ==> cb.failureCount >= cb.failureThreshold)
  }

  lemma BreakerCallKeepsValid<V>(cb: CircuitBreaker, start: int, outcome: Result<V>, failTime: int)
    requires BreakerValid(cb)
    ensures BreakerValid(BreakerCall(cb, start, outcome, failTime).breaker)
  {
  }

  /** A failure during the half-open trial reopens the breaker: the count
      was not reset when the trial began. */
  lemma HalfOpenFailureReopens<V>(cb: CircuitBreaker, start: int, e: string, failTime: int)
    requires BreakerValid(cb) && cb.state == Open
    requires start - cb.lastFailureTime > cb.recoveryTimeout
    ensures var r := BreakerCall<V>(cb, start, Err(e), failTime);
      r.called && r.breaker.state == Open && r.breaker.lastFailureTime == failTime
  {
  }

  /** A call sequence: (start time, outcome, failure time) for each call. */
  datatype Attempt<V> = Attempt(start: int, outcome: Result<V>, failTime: int)

  function RunBreaker<V>(cb: CircuitBreaker, attempts: seq<Attempt<V>>): (r: CircuitBreaker)
    decreases |attempts|
  {
    if |attempts| == 0 then cb
    else
      var a := attempts[0];
      RunBreaker(BreakerCall(cb, a.start, a.outcome, a.failTime).breaker, attempts[1..])
  }

  /** From a fresh breaker, every call sequence leaves it valid. */
  lemma {:induction false} RunBreakerValid<V>(cb: CircuitBreaker, attempts: seq<Attempt<V>>)
    requires BreakerValid(cb)
    ensures BreakerValid(RunBreaker(cb, attempts))
    decreases |attempts|
  {
    if |attempts| > 0 {
      var a := attempts[0];
      BreakerCallKeepsValid(cb, a.start, a.outcome, a.failTime);
      RunBreakerValid(BreakerCall(cb, a.start, a.outcome, a.failTime).breaker, attempts[1..]);
    }
  }

  lemma FreshBreakerValid<V>(failureThreshold: int, recoveryTimeout: int, attempts: seq<Attempt<V>>)
    ensures BreakerValid(RunBreaker(NewCircuitBreaker(failureThreshold, recoveryTimeout), attempts))
  {
    RunBreakerValid(NewCircuitBreaker(failureThreshold, recoveryTimeout), attempts);
  }

  /** `n` failing calls, all at time `t`. */
  function Failures(n: nat, t: int, e: string): (a: seq<Attempt<int>>)
    ensures |a| == n && forall i :: 0 <= i < n ==> a[i] == Attempt(t, Err(e), t)
  {
    seq(n, _ => Attempt(t, Err(e), t))
  }

  /** Consecutive failures of a closed breaker: the count climbs by one per
      failure, and the breaker is open exactly when the count has reached
      the threshold. */
  lemma {:induction false} FailuresOpen(cb: CircuitBreaker, n: nat, t: int, e: string)
    requires cb.state == Closed && cb.failureCount >= 0 && cb.failureCount + n <= cb.failureThreshold
    ensures var r := RunBreaker(cb, Failures(n, t, e));
      r.failureCount == cb.failureCount + n &&
      (r.state == Open <==> (n > 0 && r.failureCount >= cb.failureThreshold))
    decreases n
  {
    if n > 0 {
      var attempts := Failures(n, t, e);
      var b := BreakerCall(cb, t, attempts[0].outcome, t).breaker;
      assert attempts[1..] == Failures(n - 1, t, e);
      if b.state == Closed {
        FailuresOpen(b, n - 1, t, e);
      } else {
        assert n == 1;
      }
    }
  }
}

=== FILE: text_utils.dfy ===
/** The text splitters and the stopword filter of the `aimakerspace`
    package: a fixed-stride character window, a greedy line packer, and a
    whitespace tokenizer that drops stopwords. */
module TextUtils {
  import opened Base

  // ---------------------------------------------------------------------
  // Python string primitives
  // ---------------------------------------------------------------------

  /** Python's `str.isspace` for one code point: the characters that
      `str.split()` and `str.strip()` treat as whitespace. */
  predicate IsSpace(c: char) {
    c in Whitespace
  }

  const Whitespace: set<char> := {
    '\t', '\n', '\U{b}', '\U{c}', '\r', '\U{1c}', '\U{1d}', '\U{1e}', '\U{1f}', ' ',
    '\U{85}', '\U{a0}', '\U{1680}',
    '\U{2000}', '\U{2001}', '\U{2002}', '\U{2003}', '\U{2004}', '\U{2005}', '\U{2006}', '\U{2007}',
    '\U{2008}', '\U{2009}', '\U{200a}',
    '\U{2028}', '\U{2029}', '\U{202f}', '\U{205f}', '\U{3000}'}

  /** Python's `s[lo:hi]` for a non-negative start: a negative stop counts
      from the end, and both ends are clamped to the string. */
  function PySlice(s: string, lo: nat, hi: int): (r: string)
    ensures |r| <= |s|
  {
    var start := if lo <= |s| then lo else |s|;
    var stop0 := if hi < 0 then hi + |s| else hi;
    var stop := if stop0 < 0 then 0 else if stop0 > |s| then |s| else stop0;
    if stop <= start then "" else s[start..stop]
  }

  /** The first index from `i` on that is not whitespace, or `|s|`. */
  function SkipSpaces(s: string, i: nat): (n: nat)
    requires i <= |s|
    ensures i <= n <= |s|
    ensures forall k :: i <= k < n ==> IsSpace(s[k])
    ensures n < |s| ==> !IsSpace(s[n])
    decreases |s| - i
  {
    if i < |s| && IsSpace(s[i]) then SkipSpaces(s, i + 1) else i
  }

  /** The end left after dropping the whitespace before `j`, never going
      below `lo`. */
  function SkipSpacesBack(s: string, lo: nat, j: nat): (e: nat)
    requires lo <= j <= |s|
    ensures lo <= e <= j
    ensures forall k :: e <= k < j ==> IsSpace(s[k])
    ensures e > lo ==> !IsSpace(s[e - 1])
    decreases j
  {
    if j > lo && IsSpace(s[j - 1]) then SkipSpacesBack(s, lo, j - 1) else j
  }

  /** A string with no whitespace at either end (or the empty string). */
  predicate Tidy(s: string) {
    s == [] || (!IsSpace(s[0]) && !IsSpace(s[|s| - 1]))
  }

  /** Number of whitespace characters `strip` cuts from the front. */
  function LeadingSpaces(s: string): (n: nat)
    ensures n <= |s|
  {
    SkipSpaces(s, 0)
  }

  /** Python's `s.strip()`: the result is a slice of `s` with no whitespace
      at either end, and it is empty exactly when `s` is all whitespace. */
  function Strip(s: string): (r: string)
    ensures Tidy(r)
    ensures LeadingSpaces(s) + |r| <= |s| && r == s[LeadingSpaces(s)..LeadingSpaces(s) + |r|]
    ensures forall i :: 0 <= i < LeadingSpaces(s) ==> IsSpace(s[i])
    ensures forall i :: LeadingSpaces(s) + |r| <= i < |s| ==> IsSpace(s[i])
    ensures r == [] <==> forall i :: 0 <= i < |s| ==> IsSpace(s[i])
  {
    var a := LeadingSpaces(s);
    var e := SkipSpacesBack(s, a, |s|);
    assert e > a ==> !IsSpace(s[a]);
    s[a..e]
  }

  /** A string with no whitespace at either end is its own `strip`. */
  lemma StripTidy(s: string)
    requires Tidy(s)
    ensures Strip(s) == s
  {
  }

  /** The pieces of `s` at `sep`, where `cur` is the piece read so far. */
  function SplitFrom(s: string, sep: char, cur: string): (r: seq<string>)
    ensures |r| >= 1
    decreases |s|
  {
    if |s| == 0 then [cur]
    else if s[0] == sep then [cur] + SplitFrom(s[1..], sep, [])
    else SplitFrom(s[1..], sep, cur + [s[0]])
  }

  /** Python's `s.split(sep)` with an explicit one-character separator:
      always at least one piece, empty pieces kept. */
  function SplitOn(s: string, sep: char): (r: seq<string>)
    ensures |r| >= 1
  {
    SplitFrom(s, sep, [])
  }

  lemma {:induction false} SplitFromNoSep(s: string, sep: char, cur: string)
    requires sep !in s
    ensures SplitFrom(s, sep, cur) == [cur + s]
    decreases |s|
  {
    if |s| > 0 {
      SplitFromNoSep(s[1..], sep, cur + [s[0]]);
      assert cur + [s[0]] + s[1..] == cur + s;
    } else {
      assert cur + s == cur;
    }
  }

  /** A text without the separator is one piece. */
  lemma SplitOnNoSep(s: string, sep: char)
    requires sep !in s
    ensures SplitOn(s, sep) == [s]
  {
    SplitFromNoSep(s, sep, []);
    assert [] + s == s;
  }

  lemma {:induction false} SplitFromJoin(a: string, sep: char, b: string, cur: string)
    ensures SplitFrom(a + [sep] + b, sep, cur) == SplitFrom(a, sep, cur) + SplitFrom(b, sep, [])
    decreases |a|
  {
    var s := a + [sep] + b;
    if |a| == 0 {
      assert s[0] == sep && s[1..] == b;
    } else {
      assert s[0] == a[0] && s[1..] == a[1..] + [sep] + b;
      if a[0] == sep {
        SplitFromJoin(a[1..], sep, b, []);
      } else {
        SplitFromJoin(a[1..], sep, b, cur + [a[0]]);
      }
    }
  }

  /** Splitting at a separator splits the two sides independently. */
  lemma SplitOnJoin(a: string, sep: char, b: string)
    ensures SplitOn(a + [sep] + b, sep) == SplitOn(a, sep) + SplitOn(b, sep)
  {
    SplitFromJoin(a, sep, b, []);
  }

  lemma {:induction false} SplitFromPieces(s: string, sep: char, cur: string)
    requires sep !in cur
    ensures forall p :: p in SplitFrom(s, sep, cur) ==> sep !in p && |p| <= |cur| + |s|
    decreases |s|
  {
    if |s| > 0 {
      if s[0] == sep {
        SplitFromPieces(s[1..], sep, []);
      } else {
        SplitFromPieces(s[1..], sep, cur + [s[0]]);
      }
    }
  }

  /** No piece contains the separator, and no piece is longer than the input. */
  lemma SplitOnPieces(s: string, sep: char)
    ensures forall p :: p in SplitOn(s, sep) ==> sep !in p && |p| <= |s|
  {
    SplitFromPieces(s, sep, []);
  }

  /** Python's `sep.join(ws)`. */
  function JoinWith(sep: string, ws: seq<string>): string
    decreases |ws|
  {
    if |ws| == 0 then ""
    else if |ws| == 1 then ws[0]
    else ws[0] + sep + JoinWith(sep, ws[1..])
  }

  // ---------------------------------------------------------------------
  // CharacterTextSplitter
  // ---------------------------------------------------------------------

  const DefaultChunkSize: int := 1000
  const DefaultChunkOverlap: int := 200
  const OverlapMessage := "Chunk size must be greater than chunk overlap"

  datatype CharSplitter = CharSplitter(chunkSize: int, chunkOverlap: int) {
    /** What the constructor's assertion admits. */
    predicate Valid() { chunkSize > chunkOverlap }

    /** The stride of the window. */
    function Step(): int { chunkSize - chunkOverlap }
  }

  /** The constructor: it refuses a chunk size that does not exceed the overlap. */
  function NewCharSplitter(chunkSize: int := DefaultChunkSize, chunkOverlap: int := DefaultChunkOverlap): (r: Result<CharSplitter>)
    ensures r.Ok? <==> chunkSize > chunkOverlap
    ensures r.Ok? ==> r.value.Valid() && r.value.Step() > 0
    ensures r.Ok? ==> r.value.chunkSize == chunkSize && r.value.chunkOverlap == chunkOverlap
    ensures r.Err? ==> r.error == OverlapMessage
  {
    if chunkSize > chunkOverlap then Ok(CharSplitter(chunkSize, chunkOverlap))
    else Err(OverlapMessage)
  }

  /** The windows starting at i, i + step, ... below |text|. */
  function Windows(text: string, size: int, step: int, i: nat): seq<string>
    requires step > 0
    decreases |text| - i
  {
    if i >= |text| then []
    else [PySlice(text, i, i + size)] + Windows(text, size, step, i + step)
  }

  /** `CharacterTextSplitter.split`. */
  function CharSplit(sp: CharSplitter, text: string): seq<string>
    requires sp.Valid()
  {
    Windows(text, sp.chunkSize, sp.Step(), 0)
  }

  function Min(a: int, b: int): int { if a <= b then a else b }

  /** A window starting inside the text is a plain slice, cut at the end. */
  lemma PySliceWindow(text: string, i: nat, size: int)
    requires i < |text| && size >= 1
    ensures PySlice(text, i, i + size) == text[i..Min(i + size, |text|)]
  {
  }

  lemma MulStep(k: nat, step: int)
    requires k >= 1
    ensures k * step == (k - 1) * step + step
  {
  }

  /** Number of windows: the least c with c * step covering what remains
      of the text. */
  lemma {:induction false} WindowsCount(text: string, size: int, step: int, i: nat)
    requires step > 0 && i <= |text|
    ensures var c := |Windows(text, size, step, i)|;
      (c == 0 <==> i == |text|) &&
      (c > 0 ==> (c - 1) * step < |text| - i <= c * step)
    decreases |text| - i
  {
    if i < |text| {
      var c := |Windows(text, size, step, i)|;
      if i + step >= |text| {
        assert Windows(text, size, step, i + step) == [];
        assert c == 1;
      } else {
        WindowsCount(text, size, step, i + step);
        MulStep(c, step);
        MulStep(c - 1, step);
      }
    }
  }

  /** Window k starting from i is the slice of `text` at i + k*step, cut at
      `size` characters or at the end of the text. */
  lemma {:induction false} WindowsShape(text: string, size: int, step: int, i: nat, k: nat)
    requires step > 0 && size >= 1
    requires k < |Windows(text, size, step, i)|
    ensures i + k * step < |text|
    ensures Windows(text, size, step, i)[k]
         == text[i + k * step .. Min(i + k * step + size, |text|)]
    decreases k
  {
    if k > 0 {
      WindowsShape(text, size, step, i + step, k - 1);
      MulStep(k, step);
    } else {
      PySliceWindow(text, i, size);
    }
  }

  /** There are ceil(|text| / step) chunks, none for the empty text. */
  lemma CharSplitCount(sp: CharSplitter, text: string)
    requires sp.Valid()
    ensures var c := |CharSplit(sp, text)|;
      (c == 0 <==> text == []) &&
      (c > 0 ==> (c - 1) * sp.Step() < |text| <= c * sp.Step())
  {
    WindowsCount(text, sp.chunkSize, sp.Step(), 0);
  }

  /** Every chunk is the slice `text[k*step .. min(k*step + chunk_size, |text|)]`,
      there are ceil(|text| / step) of them (none for the empty text), and each
      is non-empty and at most `chunk_size` long. */
  lemma CharSplitShape(sp: CharSplitter, text: string)
    requires sp.Valid() && sp.chunkSize >= 1
    ensures var c := |CharSplit(sp, text)|;
      (c == 0 <==> text == []) &&
      (c > 0 ==> (c - 1) * sp.Step() < |text| <= c * sp.Step())
    ensures forall k :: 0 <= k < |CharSplit(sp, text)| ==>
      k * sp.Step() < |text| &&
      CharSplit(sp, text)[k] == text[k * sp.Step() .. Min(k * sp.Step() + sp.chunkSize, |text|)]
    ensures forall k :: 0 <= k < |CharSplit(sp, text)| ==>
      0 < |CharSplit(sp, text)[k]| <= sp.chunkSize
  {
    CharSplitCount(sp, text);
    forall k | 0 <= k < |CharSplit(sp, text)|
      ensures k * sp.Step() < |text|
      ensures CharSplit(sp, text)[k]
           == text[k * sp.Step() .. Min(k * sp.Step() + sp.chunkSize, |text|)]
      ensures 0 < |CharSplit(sp, text)[k]| <= sp.chunkSize
    {
      WindowsShape(text, sp.chunkSize, sp.Step(), 0, k);
    }
  }

  /** Undo the window: the first `step` characters of each chunk but the
      last, then the whole last chunk. */
  function Reassemble(chunks: seq<string>, step: nat): string
    decreases |chunks|
  {
    if |chunks| == 0 then ""
    else if |chunks| == 1 then chunks[0]
    else (if |chunks[0]| >= step then chunks[0][..step] else chunks[0])
         + Reassemble(chunks[1..], step)
  }

  lemma {:induction false} WindowsReassemble(text: string, size: int, step: int, i: nat)
    requires 0 < step <= size && i <= |text|
    ensures Reassemble(Windows(text, size, step, i), step) == text[i..]
    decreases |text| - i
  {
    if i < |text| {
      var rest := Windows(text, size, step, i + step);
      var c := PySlice(text, i, i + size);
      assert Windows(text, size, step, i) == [c] + rest;
      PySliceWindow(text, i, size);
      if i + step >= |text| {
        assert rest == [];
        assert c == text[i..];
      } else {
        WindowsReassemble(text, size, step, i + step);
        WindowReassembleStep(text, size, step, i, c, rest);
      }
    }
  }

  lemma WindowReassembleStep(text: string, size: int, step: int, i: nat, c: string, rest: seq<string>)
    requires 0 < step <= size && i + step < |text|
    requires c == text[i..Min(i + size, |text|)]
    requires |rest| > 0 && Reassemble(rest, step) == text[i + step..]
    ensures Reassemble([c] + rest, step) == text[i..]
  {
    assert ([c] + rest)[1..] == rest;
    assert c[..step] == text[i..i + step];
    assert text[i..] == text[i..i + step] + text[i + step..];
  }

  /** Round trip: with a non-negative overlap, reassembling the chunks gives
      back the text. */
  lemma CharSplitRoundTrip(sp: CharSplitter, text: string)
    requires sp.Valid() && sp.chunkOverlap >= 0
    ensures Reassemble(CharSplit(sp, text), sp.Step()) == text
  {
    WindowsReassemble(text, sp.chunkSize, sp.Step(), 0);
  }

  /** The loop shared by both `split_texts`: extend the result with the
      chunks of each text, in input order. */
  method SplitAll(texts: seq<string>, split: string -> seq<string>) returns (chunks: seq<string>)
    ensures chunks == Flatten(MapSplit(texts, split))
  {
    var parts := MapSplit(texts, split);
    chunks := [];
    var k := 0;
    while k < |texts|
      invariant 0 <= k <= |texts|
      invariant chunks == Flatten(parts[..k])
    {
      FlattenAppend(parts[..k], [parts[k]]);
      assert parts[..k + 1] == parts[..k] + [parts[k]];
      assert Flatten([parts[k]]) == parts[k];
      chunks := chunks + split(texts[k]);
      k := k + 1;
    }
    assert parts[..|texts|] == parts;
  }

  /** The chunk lists of each text, in input order. */
  function MapSplit(texts: seq<string>, split: string -> seq<string>): (r: seq<seq<string>>)
    ensures |r| == |texts| && forall i :: 0 <= i < |texts| ==> r[i] == split(texts[i])
  {
    seq(|texts|, i requires 0 <= i < |texts| => split(texts[i]))
  }

  /** `CharacterTextSplitter.split_texts`. */
  method CharSplitTexts(sp: CharSplitter, texts: seq<string>) returns (chunks: seq<string>)
    requires sp.Valid()
    ensures chunks == Flatten(seq(|texts|, i requires 0 <= i < |texts| => CharSplit(sp, texts[i])))
  {
    var split := t => CharSplit(sp, t);
    chunks := SplitAll(texts, split);
    assert MapSplit(texts, split) == seq(|texts|, i requires 0 <= i < |texts| => CharSplit(sp, texts[i]));
  }

  // ---------------------------------------------------------------------
  // ParagraphTextSplitter
  // ---------------------------------------------------------------------

  const DefaultParagraphChunkSize: int := 1000

  datatype ParagraphSplitter = ParagraphSplitter(chunkSize: int := DefaultParagraphChunkSize)

  /** A paragraph as the splitter sees it: non-empty, stripped, one line. */
  predicate Clean(p: string) {
    p != [] && Tidy(p) && '\n' !in p
  }

  /** `[p.strip() for p in lines if p.strip()]`. */
  function StrippedNonBlank(lines: seq<string>): seq<string>
    decreases |lines|
  {
    if |lines| == 0 then []
    else if Strip(lines[0]) != [] then [Strip(lines[0])] + StrippedNonBlank(lines[1..])
    else StrippedNonBlank(lines[1..])
  }

  /** The paragraphs of a text: its stripped non-blank lines, in order. */
  function Paragraphs(text: string): (ps: seq<string>)
    ensures forall p :: p in ps ==> Clean(p)
  {
    SplitOnPieces(text, '\n');
    StrippedClean(SplitOn(text, '\n'));
    StrippedNonBlank(SplitOn(text, '\n'))
  }

  lemma {:induction false} StrippedClean(lines: seq<string>)
    requires forall l :: l in lines ==> '\n' !in l
    ensures forall p :: p in StrippedNonBlank(lines) ==> Clean(p)
    decreases |lines|
  {
    if |lines| > 0 {
      StrippedClean(lines[1..]);
      var p := Strip(lines[0]);
      var i := LeadingSpaces(lines[0]);
      assert forall c :: c in p ==> c in lines[0];
    }
  }

  /** The packing loop, from the chunk under construction `current`: a
      paragraph joins the current chunk after a newline unless the chunk is
      non-empty and the join would pass the size with two characters to
      spare; then the chunk is emitted stripped and the paragraph starts the
      next one. What remains is emitted at the end. */
  function Pack(paras: seq<string>, current: string, size: int): seq<string>
    decreases |paras|
  {
    if |paras| == 0 then
      (if current != [] then [Strip(current)] else [])
    else
      var para := paras[0];
      if current != [] && |current| + |para| + 2 > size then
        [Strip(current)] + Pack(paras[1..], para, size)
      else
        Pack(paras[1..], if current != [] then current + "\n" + para else para, size)
  }

  /** `ParagraphTextSplitter.split`. */
  function ParagraphSplit(sp: ParagraphSplitter, text: string): seq<string> {
    Pack(Paragraphs(text), "", sp.chunkSize)
  }

  /** `ParagraphTextSplitter.split_texts`. */
  method ParagraphSplitTexts(sp: ParagraphSplitter, texts: seq<string>) returns (chunks: seq<string>)
    ensures chunks == Flatten(seq(|texts|, i requires 0 <= i < |texts| => ParagraphSplit(sp, texts[i])))
  {
    var split := t => ParagraphSplit(sp, t);
    chunks := SplitAll(texts, split);
    assert MapSplit(texts, split) == seq(|texts|, i requires 0 <= i < |texts| => ParagraphSplit(sp, texts[i]));
  }

  /** The lines of a list of chunks: each chunk split at newlines, flattened. */
  function Lines(chunks: seq<string>): seq<string>
    decreases |chunks|
  {
    if |chunks| == 0 then [] else SplitOn(chunks[0], '\n') + Lines(chunks[1..])
  }

  lemma {:induction false} LinesMember(chunks: seq<string>, x: string)
    requires x in Lines(chunks)
    ensures exists i :: 0 <= i < |chunks| && x in SplitOn(chunks[i], '\n')
    decreases |chunks|
  {
    if x !in SplitOn(chunks[0], '\n') {
      LinesMember(chunks[1..], x);
      var i :| 0 <= i < |chunks[1..]| && x in SplitOn(chunks[1..][i], '\n');
      assert chunks[1..][i] == chunks[i + 1];
    }
  }

  /** Invariant of the chunk under construction. */
  predicate GoodCurrent(current: string, size: int) {
    Tidy(current) && ('\n' in current ==> |current| <= size - 1)
  }

  /** The lines of one chunk followed by more chunks. */
  lemma LinesCons(c: string, rest: seq<string>)
    ensures Lines([c] + rest) == SplitOn(c, '\n') + Lines(rest)
  {
    assert ([c] + rest)[1..] == rest;
  }

  lemma {:induction false} PackLines(paras: seq<string>, current: string, size: int)
    requires forall p :: p in paras ==> Clean(p)
    requires Tidy(current)
    ensures Lines(Pack(paras, current, size))
         == (if current == [] then [] else SplitOn(current, '\n')) + paras
    decreases |paras|
  {
    if current != [] {
      StripTidy(current);
    }
    if |paras| == 0 {
      if current != [] {
        LinesCons(current, []);
      }
    } else {
      var para := paras[0];
      assert para in paras;
      assert paras == [para] + paras[1..];
      SplitOnNoSep(para, '\n');
      if current != [] && |current| + |para| + 2 > size {
        PackLines(paras[1..], para, size);
        LinesCons(current, Pack(paras[1..], para, size));
      } else if current != [] {
        var next := current + "\n" + para;
        assert next[0] == current[0] && next[|next| - 1] == para[|para| - 1];
        PackLines(paras[1..], next, size);
        SplitOnJoin(current, '\n', para);
      } else {
        PackLines(paras[1..], para, size);
      }
    }
  }

  lemma {:induction false} PackChunks(paras: seq<string>, current: string, size: int)
    requires forall p :: p in paras ==> Clean(p)
    requires GoodCurrent(current, size)
    ensures forall c :: c in Pack(paras, current, size) ==>
      c != [] && ('\n' in c ==> |c| <= size - 1)
    decreases |paras|
  {
    if current != [] {
      StripTidy(current);
    }
    if |paras| > 0 {
      var para := paras[0];
      assert para in paras;
      if current != [] && |current| + |para| + 2 > size {
        PackChunks(paras[1..], para, size);
      } else if current != [] {
        var next := current + "\n" + para;
        assert next[0] == current[0] && next[|next| - 1] == para[|para| - 1];
        PackChunks(paras[1..], next, size);
      } else {
        PackChunks(paras[1..], para, size);
      }
    }
  }

  /** Splitting every chunk at its newlines and flattening gives exactly
      the stripped non-blank lines of the input: nothing dropped, nothing
      reordered. */
  lemma ParagraphSplitLines(sp: ParagraphSplitter, text: string)
    ensures Lines(ParagraphSplit(sp, text)) == Paragraphs(text)
  {
    PackLines(Paragraphs(text), "", sp.chunkSize);
  }

  /** No chunk is empty, and a chunk that joins two or more paragraphs
      (it contains a newline; paragraphs have none) is at most
      `chunk_size - 1` long. */
  lemma ParagraphSplitBounds(sp: ParagraphSplitter, text: string)
    ensures forall c :: c in ParagraphSplit(sp, text) ==>
      c != [] && ('\n' in c ==> |c| <= sp.chunkSize - 1)
  {
    PackChunks(Paragraphs(text), "", sp.chunkSize);
  }

  /** A paragraph of at least `chunk_size` characters is emitted whole, as a
      chunk of its own. */
  lemma LongParagraphWhole(sp: ParagraphSplitter, text: string, p: string)
    requires p in Paragraphs(text) && |p| >= sp.chunkSize
    ensures p in ParagraphSplit(sp, text)
  {
    var chunks := ParagraphSplit(sp, text);
    ParagraphSplitLines(sp, text);
    ParagraphSplitBounds(sp, text);
    LinesMember(chunks, p);
    var i :| 0 <= i < |chunks| && p in SplitOn(chunks[i], '\n');
    SplitOnPieces(chunks[i], '\n');
    assert chunks[i] in chunks;
    assert |chunks[i]| > sp.chunkSize - 1;
    assert '\n' !in chunks[i];
    SplitOnNoSep(chunks[i], '\n');
  }

  // ---------------------------------------------------------------------
  // TextPreprocessor.remove_stopwords
  // ---------------------------------------------------------------------

  /** Length of the run of non-whitespace characters at the start of `s`. */
  function WordLen(s: string): (n: nat)
    ensures n <= |s|
    ensures forall i :: 0 <= i < n ==> !IsSpace(s[i])
    ensures n < |s| ==> IsSpace(s[n])
    decreases |s|
  {
    if |s| == 0 || IsSpace(s[0]) then 0 else 1 + WordLen(s[1..])
  }

  /** A word as `str.split()` yields it. */
  predicate IsWord(w: string) {
    w != [] && forall i :: 0 <= i < |w| ==> !IsSpace(w[i])
  }

  /** Python's `s.split()`: the maximal runs of non-whitespace. */
  function Words(s: string): (ws: seq<string>)
    ensures forall w :: w in ws ==> IsWord(w)
    decreases |s|
  {
    if |s| == 0 then []
    else if IsSpace(s[0]) then Words(s[1..])
    else
      var n := WordLen(s);
      [s[..n]] + Words(s[n..])
  }

  /** ASCII part of Python's `str.lower`. */
  function Lower(w: string): (r: string)
    ensures |r| == |w|
  {
    seq(|w|, i requires 0 <= i < |w| =>
      if 'A' <= w[i] <= 'Z' then (w[i] as int + 32) as char else w[i])
  }

  /** The words, in order, whose lower-case form is not a stopword. */
  function KeepWords(ws: seq<string>, stopwords: set<string>): (r: seq<string>)
    ensures forall w :: w in r <==> w in ws && Lower(w) !in stopwords
    ensures |r| <= |ws|
    decreases |ws|
  {
    if |ws| == 0 then []
    else if Lower(ws[0]) !in stopwords then [ws[0]] + KeepWords(ws[1..], stopwords)
    else KeepWords(ws[1..], stopwords)
  }

  /** `TextPreprocessor.remove_stopwords`, with the stopword set as a parameter. */
  function RemoveStopwords(text: string, stopwords: set<string>): string {
    JoinWith(" ", KeepWords(Words(text), stopwords))
  }

  lemma WordsOfWord(w: string, rest: string)
    requires IsWord(w)
    ensures Words(w + rest) == [w] + Words(rest) || (rest != [] && !IsSpace(rest[0]))
    ensures rest == [] ==> Words(w) == [w]
    ensures rest != [] && IsSpace(rest[0]) ==> Words(w + rest) == [w] + Words(rest[1..])
  {
    var s := w + rest;
    if rest == [] {
      assert s == w;
      assert WordLen(s) == |w|;
      assert s[|w|..] == [];
    } else if IsSpace(rest[0]) {
      assert WordLen(s) == |w| by {
        assert s[|w|] == rest[0];
      }
      assert s[..|w|] == w;
      assert s[|w|..] == rest;
      assert rest[1..] == s[|w| + 1..];
    }
  }

  /** Joining words with single spaces and splitting again gives the words back. */
  lemma {:induction false} WordsOfJoin(ws: seq<string>)
    requires forall w :: w in ws ==> IsWord(w)
    ensures Words(JoinWith(" ", ws)) == ws
    decreases |ws|
  {
    if |ws| == 0 {
    } else if |ws| == 1 {
      WordsOfWord(ws[0], "");
    } else {
      WordsOfJoin(ws[1..]);
      var rest := " " + JoinWith(" ", ws[1..]);
      assert ws[0] + " " + JoinWith(" ", ws[1..]) == ws[0] + rest;
      WordsOfWord(ws[0], rest);
      assert rest[1..] == JoinWith(" ", ws[1..]);
    }
  }

  lemma {:induction false} KeepWordsIdempotent(ws: seq<string>, stopwords: set<string>)
    ensures KeepWords(KeepWords(ws, stopwords), stopwords) == KeepWords(ws, stopwords)
    decreases |ws|
  {
    if |ws| > 0 {
      KeepWordsIdempotent(ws[1..], stopwords);
    }
  }

  /** Filtering a concatenation filters each part: every kept word stays,
      in order and with its repeats. */
  lemma {:induction false} KeepWordsAppend(a: seq<string>, b: seq<string>, stopwords: set<string>)
    ensures KeepWords(a + b, stopwords) == KeepWords(a, stopwords) + KeepWords(b, stopwords)
    decreases |a|
  {
    if |a| > 0 {
      assert (a + b)[1..] == a[1..] + b;
      KeepWordsAppend(a[1..], b, stopwords);
    } else {
      assert a + b == b;
    }
  }

  /** A single word is kept exactly when its lower-case form is not a stopword. */
  lemma KeepWordsOne(w: string, stopwords: set<string>)
    ensures Lower(w) !in stopwords ==> KeepWords([w], stopwords) == [w]
    ensures Lower(w) in stopwords ==> KeepWords([w], stopwords) == []
  {
    assert [w][1..] == [];
  }

  /** The output's words are exactly the kept words of the input, in order,
      and none of them is a stopword. */
  lemma RemoveStopwordsWords(text: string, stopwords: set<string>)
    ensures Words(RemoveStopwords(text, stopwords)) == KeepWords(Words(text), stopwords)
    ensures forall w :: w in Words(RemoveStopwords(text, stopwords)) ==> Lower(w) !in stopwords
  {
    WordsOfJoin(KeepWords(Words(text), stopwords));
  }

  /** Removing stopwords twice is the same as removing them once. */
  lemma RemoveStopwordsIdempotent(text: string, stopwords: set<string>)
    ensures RemoveStopwords(RemoveStopwords(text, stopwords), stopwords)
         == RemoveStopwords(text, stopwords)
  {
    RemoveStopwordsWords(text, stopwords);
    KeepWordsIdempotent(Words(text), stopwords);
  }
}
